=== FILE: README.md ===
# Sonos alert orchestration, modelled in Dafny

This project models the core of a Homebridge plugin that plays a short alert
clip on Sonos speakers. When the clip ends, each speaker goes back to what it
was doing. The model covers these parts:

- **The device registry of `SonosManager`.** It maps lower-cased room names to
  endpoints. Broadcast discovery or seeded zone-group discovery fills it at
  start-up, and rediscovery refreshes one entry after a failure
  (`registry.dfy`, `discovery.dfy`).
- **One alert attempt on one speaker** (`tryPlayNotification` and
  `waitForPlaybackToStop`). It captures the state, sets the room volume,
  plays the clip and polls until the clip ends. It then restores the volume
  and resumes the previous source (`attempt.dfy`).
  - The speaker is an abstract state (`Speaker`).
  - Every service call appends an `Event` to a trace.
  - An oracle `Env`, indexed by trace position, decides which call fails,
    what each poll of the transport state observes, what a rediscovery
    search answers, and how many polls the clock leaves a wait.
- **Fan-out and retry** (`orchestrator.dfy`). `playAlert` resolves the rooms
  of an alert into device tasks. `playAlertOnDevice` makes one attempt; if
  that fails, it rediscovers the speaker and makes at most one more attempt.
- **The switch handler** `AlertSwitch.setOn` (`switch.dfy`). It expands the
  "All" rooms over the registered speakers.
- **The platform** (`platform.dfy`). It covers the start-up guard on the
  configuration, and the reconciliation of cached accessories with the
  configured alerts.
- **The earlier accessory plugin `index.js`** (`legacy.dfy`). It covers the
  group filter, the switch gating, and the resume condition.

Network calls, discovery replies and the UUID generator are not implemented.
The model takes them as parameters: the oracle `Env`, the `Search` and
`SeedReply` answers, and the function `uuid`.

## Volume after a retry

When a room volume is given, an attempt reads the speaker's volume and then
sets the room volume (src/sonos.ts:186-191). It puts the volume it read back
only after the clip, at the end of the attempt. A completed attempt therefore
leaves the volume as it found it (`Attempt.TryPlay`).

An attempt can fail after it has set the room volume. The retry
(src/sonos.ts:164-165) is a fresh attempt, and it reads the raised volume as
the one to put back. `Orchestrator.RetryKeepsAlertVolume` proves this for a
concrete input:

- the speaker starts at volume 10 and the room volume is 50;
- the alert URI call of the first attempt fails;
- the speaker is found again at a new address and the retry plays;
- the speaker ends at volume 50.

## Model

| member | source | states |
|---|---|---|
| Text.Lower | src/sonos.ts:121-123 | Lower-casing keeps the length. Each upper-case letter becomes its lower-case counterpart, and every other character stays as it is. |
| Text.IsAll | src/alertSwitch.ts:46 | A name is the "All" sentinel exactly when it has three letters: `a` or `A`, then `l` or `L` twice. |
| Text.LowerIdempotent | src/sonos.ts:242-244 | A name that is already lower case is its own key. |
| Text.AllSentinelSpellings | src/alertSwitch.ts:46 | "All", "ALL" and "all" are the "All" sentinel; "Hall" is not. |
| Registry.Put | src/sonos.ts:59-63 | A write stores the device under the lower case of its name, adds only that key, and leaves every other entry as it was. A registry whose entries sit under their own lower-cased names stays that way. |
| Registry.PutAll | src/sonos.ts:81-89 | Writing devices one by one adds exactly their lower-cased names as keys. The last device with a key wins. Keys not written keep their entries. Well-keyedness is preserved. |
| Registry.Get | src/sonos.ts:121-123 | A lookup finds an entry exactly when the lower-cased query is a key. The entry found is the device stored under that key, and in a well-keyed registry it carries that key. |
| Registry.PutAllAppend | src/sonos.ts:80-88 | Writing two lists of devices one after the other is writing their concatenation. |
| Registry.GetAfterPut | src/sonos.ts:121-123 | After writing a device, a lookup in any letter case of its name finds it, and lookups of other names are unchanged. |
| Registry.AllDevices | src/sonos.ts:117-119 | Lists every registered device, and as many entries as there are keys (`Lists`). |
| Discovery.LoadedPrefix | src/sonos.ts:56-58 | The devices written before the first player whose description fails to load, in order. |
| Discovery.DiscoverPlayers | src/sonos.ts:56-64 | The discovery loop succeeds exactly when every player loads. It writes the players before the first failure, and what was written stays. |
| Discovery.DiscoverAll | src/sonos.ts:52-65 | A failed search writes nothing and fails. Otherwise the loop runs over the players found. Well-keyedness is preserved. |
| Discovery.Members | src/sonos.ts:81-82 | A device is listed exactly when it is a member of some group. |
| Discovery.MembersAppend | src/sonos.ts:80-82 | The members are listed group by group: the members of consecutive groups follow each other. |
| Discovery.MembersOne | src/sonos.ts:81 | One group lists its members in its own order. |
| Discovery.LaterGroupsWin | src/sonos.ts:80-88 | Registering the members of a list of groups and then of one more group is registering them all, so a member of a later group replaces an earlier entry with the same lower-cased name. |
| Discovery.DiscoverFromSeed | src/sonos.ts:67-90 | Seeded discovery succeeds exactly when the seed answers. With no groups it writes the seed alone on port 1400; otherwise it writes every member of every group. |
| Discovery.SeedFallbackSingleEntry | src/sonos.ts:74-78 | A seed that reports no groups gives a registry of exactly one entry: the seed, on port 1400. |
| Discovery.RoomNames | src/sonos.ts:101-103 | A name is collected exactly when some room of the list has it. |
| Discovery.ConfiguredNames | src/sonos.ts:98-104 | A name is collected exactly when some room of some alert has it. |
| Discovery.AddRoomNames | src/sonos.ts:101-103 | The inner loop adds exactly the room names of one alert to the set. |
| Discovery.CollectRoomNames | src/sonos.ts:98-104 | The nested loops collect exactly the configured room names. |
| Discovery.ValidateConfiguredRooms | src/sonos.ts:97-115 | Warns exactly for the configured names that are not "All" in any case, whose lower-cased form is not a registry key, and is not a key the registry object inherits ("constructor", "__proto__"). |
| Discovery.InheritedNamesNotWarned | src/sonos.ts:110 | A room named "Constructor" is never reported missing, not even by an empty registry. "Kitchen" is. |
| Discovery.Init | src/sonos.ts:28-50 | With a truthy `ip_address` the registry is the one the seeded discovery built from that address; otherwise it is the one the broadcast discovery built. An initialized manager has at least one speaker. An empty registry leaves the manager uninitialized. Room warnings come only after a successful start, and then they are exactly the missing rooms. |
| Discovery.PutAllEmpty | src/sonos.ts:38-41 | Discovery leaves the registry empty exactly when it wrote no device. |
| Discovery.InitSucceedsIff | src/sonos.ts:28-50 | With a seed address: initialization succeeds exactly when the seed answers and either reports no groups or reports some member. Without one: exactly when the search succeeds, finds a player, and every player loads. |
| Discovery.FirstMatch | src/sonos.ts:238-248 | A device is found exactly when some player matches the name up to case and every player before it loaded and did not match. What is returned is that player's device. |
| Discovery.Rediscover | src/sonos.ts:233-254 | Gives a device exactly when the search succeeds and finds a match, and the device it gives is the one `FirstMatch` picks: the matched player's name, host and port. It then overwrites only the entry under the lower-cased name, with that device. On an error or no match it changes nothing. |
| Attempt.Exec | src/sonos.ts:178 | One service call appends exactly one event for its endpoint, operation and outcome. It fails exactly when the oracle says so at that trace position. A failed call changes nothing. A successful one applies its effect; a poll records the state it observed. |
| Attempt.ExecAll | src/sonos.ts:178-195 | Awaited calls run in order. Queries leave the speaker as it is. Calls that all succeed apply their effects in order. |
| Attempt.ExecAllTrace | src/sonos.ts:178-195 | The calls made are those of the list, in order, to one endpoint. All succeed, or the last one made failed and nothing follows it. |
| Attempt.Wait | src/sonos.ts:219-227 | Polls at most `fuel` times, the number of polls the clock allows (`Finish` passes the poll budget of `Env`). Stopping early means the last poll reported STOPPED or PAUSED_PLAYBACK (`WaitStops` gives the converse). Running out of polls is no failure. Nothing but the transport state changes. |
| Attempt.WaitStops | src/sonos.ts:221-224 | The wait stops at the first poll that reports STOPPED or PAUSED_PLAYBACK: every poll but the last succeeded and saw the clip still going. |
| Attempt.WaitTrace | src/sonos.ts:221-225 | The wait makes only polls, all to the speaker being waited on, and a failing poll is the last call. |
| Attempt.WaitAvoids | src/sonos.ts:221-225 | The wait touches neither the capturing query nor the volume, and polls at most `fuel` times. |
| Attempt.Capture | src/sonos.ts:178-189 | The snapshot is the speaker's state before the alert: transport, URI, metadata, track and position. The previous volume is read only when a room volume is given. |
| Attempt.CaptureTrace | src/sonos.ts:178-188 | The capture makes its queries in the source's order (transport, media, position, then the volume for a room volume), each to the speaker, stopping at the first that fails. It opens with the transport query, makes no second one, never polls, and reads the volume only for a room volume. |
| Attempt.Interrupt | src/sonos.ts:187-195 | After the interrupt, the speaker plays the alert URI with empty metadata, at the room volume when one is given and otherwise at its own. |
| Attempt.InterruptTrace | src/sonos.ts:187-195 | The interrupt sets the room volume (if any), then loads the alert URI with empty metadata, then plays, in that order, stopping at the first failing call. It makes neither a transport query nor a poll, and makes no volume call without a room volume. |
| Attempt.Seek | src/sonos.ts:209-214 | Seeking changes only the track and position, by the calls that succeed. A failed track seek skips the position seek. |
| Attempt.SeekTrace | src/sonos.ts:209-214 | Seeking makes only seek calls, and their failures are tolerated. |
| Attempt.SeekAndPlay | src/sonos.ts:209-215 | After best-effort seeking, playing leaves the speaker playing, and only the transport, track and position changed. A track seek that did not fail reached its track, and a position seek after it that did not fail reached its position. |
| Attempt.SeekAndPlayTrace | src/sonos.ts:209-215 | Seeking and playing makes no query, poll or volume call. |
| Attempt.Resume | src/sonos.ts:208-215 | Resuming plays the captured URI with its metadata, or with empty metadata when none was captured, and leaves the volume alone. |
| Attempt.ResumeSeeks | src/sonos.ts:208-211 | The calls right after loading the captured URI seek to the captured track and then to the captured position; each one that does not fail reaches its target. |
| Attempt.ResumeTrace | src/sonos.ts:208-215 | Resuming makes no query, poll or volume call, and only a seek may fail without ending it. |
| Attempt.Restore | src/sonos.ts:200-216 | Restoring puts back the captured volume when there is one. It resumes exactly when the speaker was playing a source; otherwise it changes nothing else. |
| Attempt.RestoreSeeksAt | src/sonos.ts:201-211 | When restoring resumes, the seeks come right after the volume call (if any) and the URI call, and each one that does not fail reaches the captured track or position. |
| Attempt.RestoreTrace | src/sonos.ts:200-216 | Restoring makes no query or poll, and no volume call when no volume was captured. |
| Attempt.Finish | src/sonos.ts:197-216 | After the wait, restoring runs whether the clip ended or the clock ran out. It gives the volume and the resumed source as `Restore` does. |
| Attempt.FinishTrace | src/sonos.ts:197-216 | The polls stay within the budget the clock leaves the wait, which is at most 60. If the phase completed without resuming and polled fewer times than that budget, the speaker was stopped or paused. |
| Attempt.AfterCapture | src/sonos.ts:193-216 | After the capture, a completed alert ends at the captured volume (or the volume it found, when none was captured). It ends on the captured source when resuming, and on the alert clip otherwise. |
| Attempt.AfterCaptureTrace | src/sonos.ts:193-216 | After the capture there is no second capturing query and no volume call without a room volume. The polls stay within the clock's budget for the wait that starts after the interrupting calls; fewer polls than that budget in a completed phase that did not resume mean the speaker stopped or paused. |
| Attempt.TryPlay | src/sonos.ts:173-217 | A completed attempt leaves the volume as it found it. It resumes the previous source (URI, metadata defaulting to empty, playing) exactly when the speaker was playing one; otherwise the alert clip stays loaded. |
| Attempt.TryPlayTrace | src/sonos.ts:173-217 | All calls of one attempt go to its endpoint and open with the one capturing transport query. There is no volume call without a room volume, and at most 60 polls. A failing call other than a seek ends the attempt. |
| Attempt.TryPlayBudget | src/sonos.ts:219-227 | An attempt polls no more often than the clock allows the wait that starts after its capture and interrupt calls. If a completed attempt that did not resume polled fewer times than that, the speaker was stopped or paused: only the clock running out ends a wait on a speaker that still plays. |
| Attempt.TimeoutBeforeMaxPolls | src/sonos.ts:219-227 | When the clock leaves room for one poll only, an attempt on a stopped speaker completes after a single poll with the clip still playing, well short of 60 polls. |
| Attempt.TryPlayPolls | src/sonos.ts:193-224 | Within a whole attempt, a poll is followed by another poll only when it succeeded and saw the clip still going. |
| Attempt.TryPlaySeeks | src/sonos.ts:178-215 | A completed attempt in which no call failed, on a speaker that was playing a source, leaves it at the track and position it was playing. |
| Attempt.ReliableAttempt | src/sonos.ts:173-217 | An attempt in which no call fails completes, whether the clip ends or the polls run out. |
| Orchestrator.TaskOf | src/sonos.ts:134-140 | A room gives a task exactly when its lower-cased name is registered, and it carries that device and the room's volume. |
| Orchestrator.Resolve | src/sonos.ts:133-141 | There are no more tasks than rooms and none for an empty registry, and every task comes from some room. |
| Orchestrator.PlayAlert | src/sonos.ts:125-144 | There are no tasks before initialization or with an empty registry. Otherwise the rooms are resolved. |
| Orchestrator.ResolveAppend | src/sonos.ts:133-141 | Device tasks keep the order of the rooms: resolving a concatenation concatenates their device tasks. |
| Orchestrator.ResolveOne | src/sonos.ts:134-140 | A room gives exactly one task when it resolves, and none when it does not. |
| Orchestrator.ResolveAll | src/sonos.ts:133-141 | When every room resolves, there is one task per room, position by position. |
| Orchestrator.NoSpeakersNoTasks | src/sonos.ts:126-129 | A manager that did not initialize starts no device task for any rooms. |
| Orchestrator.PlayOnDevice | src/sonos.ts:146-171 | A task plays on the first try exactly when the first attempt completes. The registry changes only after a retry, and then only under the device's lower-cased name. A first-try success restores the volume. |
| Orchestrator.Recover | src/sonos.ts:153-170 | Recovery never reports a first-try success. It keeps the registry unless it retried. It writes at most the device's own key. A retry that plays leaves the volume where the retry found it. When it retried, the rediscovery search succeeded and the entry it stored is the device of the first matching player. |
| Orchestrator.RecoverTrace | src/sonos.ts:153-170 | Recovery records one rediscovery. A retry follows only after the device was found, all its calls go to the new endpoint (the stored entry, which `Recover` ties to the first matching player), and it makes exactly one capturing query. |
| Orchestrator.PlayOnDeviceTrace | src/sonos.ts:146-171 | The first attempt's calls go to the registered endpoint. A rediscovery follows exactly when it failed, and the retry's calls go to the refreshed entry, which is the device of the first player matching the name in the search made right after the first attempt. There are at most two attempts, two exactly when retried. There are no volume calls without a room volume. |
| Orchestrator.ReliableDelivery | src/sonos.ts:149-152 | Without failing calls a task plays on the first try, keeps the registry, and restores the volume. |
| Orchestrator.RetryFirstAttempt | src/sonos.ts:187-194 | In the concrete world, the first attempt raises the volume to 50 and then fails at the alert URI. |
| Orchestrator.RecoverPlays | src/sonos.ts:157-166 | A recovery that finds the speaker, with no failing call after it, plays and leaves the volume the failed attempt left. |
| Orchestrator.RetryKeepsAlertVolume | src/sonos.ts:146-171 | In that concrete world the alert plays after rediscovery, but ends at volume 50 instead of the original 10. |
| AlertSwitch.ExpandRoom | src/alertSwitch.ts:45-50 | An "All" room becomes one room per speaker, in order, with that room's volume; any other room passes through unchanged. |
| AlertSwitch.Expand | src/alertSwitch.ts:45-50 | Every expanded room is a configured room that is not "All", or a speaker named at the volume of an "All" room. |
| AlertSwitch.ExpandAppend | src/alertSwitch.ts:45 | Expansion keeps the order of the rooms: it distributes over concatenation. |
| AlertSwitch.ExpandLength | src/alertSwitch.ts:45-50 | The expanded length is the number of speakers per "All" room plus one per other room. |
| AlertSwitch.ExpandWithoutAll | src/alertSwitch.ts:49 | Without an "All" room the rooms pass through unchanged. |
| Types.Truthy | src/alertSwitch.ts:40 | `false`, `0` and the empty string are the only falsy values. |
| AlertSwitch.SetOn | src/alertSwitch.ts:39-54 | A falsy value does nothing. Otherwise there is exactly one request, with the alert's sound URL and the rooms expanded over the devices. Their number is the number of speakers per "All" room plus one per other room. Without an "All" room they are the rooms as configured. |
| AlertSwitch.AllRoomReachesEveryDevice | src/alertSwitch.ts:46-48 | An "All" room expanded over what `getAllDevices` lists and played through an initialized manager gives one task per registered speaker, in order, at the room's volume. |
| Platform.Configured | src/platform.ts:31-32 | A configuration without alerts, or without a name, does not start the plugin. |
| Platform.ConfiguredByFirstAlert | src/platform.ts:31-32 | Whether the plugin starts depends on the name and the first alert only: adding later alerts or an address changes nothing. |
| Platform.ConfigureAccessory | src/platform.ts:48-51 | A restored accessory is stored under its UUID, replacing only that entry. |
| Platform.Fresh | src/platform.ts:59-67 | New accessories are made only for UUIDs the cache does not hold, at most one per alert. |
| Platform.ConnectSwitches | src/platform.ts:55-72 | Every alert gets a switch and contributes its UUID to the active list. The switch uses the cached accessory when there is one, and a new one exactly otherwise. Accessories are created exactly when some UUID is missing from the cache. |
| Platform.FreshSome | src/platform.ts:59-75 | Some accessory is created exactly when some alert's UUID is not cached. |
| Platform.RemoveStale | src/platform.ts:78-84 | The cache keeps exactly the entries whose UUID is active, unchanged. Every other entry is unregistered, and only such entries are. |
| Platform.PrepAlertSwitches | src/platform.ts:54-85 | Reconciliation connects one switch per alert. It registers new accessories exactly when some are created, and leaves the cache holding exactly the cached accessories some alert still uses. |
| Platform.Launch | src/platform.ts:31-45 | The manager is created and reconciliation is scheduled exactly when the name is set, there is an alert, and the first alert has rooms. |
| Legacy.GroupsForRooms | index.js:55-61 | A group is kept exactly when some member's zone name equals some requested room. |
| Legacy.GroupsForRoomsInOrder | index.js:57-60 | The kept groups are a subsequence of the groups, in their order. |
| Legacy.GroupsForRoomsAppend | index.js:57-60 | Filtering distributes over concatenation. |
| Legacy.RoomsAreCaseSensitive | index.js:58-59 | A room written in another letter case selects nothing. |
| Legacy.SetSwitchState | index.js:28-37 | A truthy value starts the alert on the switch's rooms and schedules the switch reset. The callback is answered last, either way. |
| Legacy.AfterPlayback | index.js:71-77 | After the clip, the previous URI is set again exactly when there was one and the state was "playing", and nothing else is called. |
| Legacy.AlertGroup | index.js:63-78 | The state and the track are read, in that order, before the sound plays. A rejected await ends the handler right after the rejected call. Only when every await resolved and playback stopped does `AfterPlayback` follow. |
| Legacy.LegacyResumeOnlySetsUri | index.js:66-76 | After the alert sound there is at most one call, and it sets the previous URI. It happens exactly when every await resolved, playback stopped, and the group was playing a track. |

## Left out

- The Sonos client and discovery libraries (`@svrooij/sonos`, `sonos`) are foreign code. Their calls become entries of the trace, and their answers come from the oracle. The model does not ask whether the legacy library's `setAVTransportURI` starts playback by itself.
- Registry.Get: the source's registry is a plain object, so `getDevice` of a name whose lower case is an inherited property ("constructor", "__proto__") returns that property rather than `undefined`, and `playAlert` would start a device task for it. The model's lookup finds only stored devices. A device task on such a value is not modelled.
- Orchestrator.TaskOf: for the same reason, a room named "Constructor" gives no task in the model, while the source starts one for the inherited value.
- Writing a device whose name is lower-cased to "__proto__" replaces the registry object's prototype in the source; the model stores it as an ordinary entry.
- Text.Lower: folds only the ASCII letters A–Z. JavaScript's `toLowerCase` also folds other Unicode letters.
- Registry.AllDevices: the order of `Object.values` is left unspecified; any enumeration of the entries is allowed.
- Platform.RemoveStale: the order of `Object.entries` is not modelled, and neither is the claim that each stale accessory is unregistered exactly once (only that each is unregistered).
- Attempt.TryPlayTrace: for the whole attempt it states only that GetVolume and SetVolume are absent without a room volume. That they are made with one is stated phase by phase, by `CaptureTrace` and `InterruptTrace`.
- The wall clock, `sleep` and timers: the 30-second wait with a 500 ms interval becomes a poll budget that the environment chooses for each wait. It is at least one poll, since the clock is first checked right after it was read. It is at most `MaxPolls` = 60 polls, since every pass first sleeps 500 ms. Slow polls can leave room for fewer. Which budget a given clock and poll latency give is not modelled. The 100 ms switch reset in `setOn` is left out, and the legacy one is recorded only as an effect.
- Concurrency: `Promise.allSettled` and the fire-and-forget alert are sequential in the model. Each device task runs on its own registry and speaker, so two tasks racing on the registry are not modelled.
- Logging and its messages, including `logDiscoveredDevices` and the warnings of `playAlert` and `validateConfiguredRooms`. The warnings are modelled as the set of names warned about.
- Homebridge plumbing: the services, characteristics, `setMetadata`, `registerSwitch`, and the register and unregister calls (which become the `registered` flag and the `removed` list). src/settings.ts, src/index.ts and the Homebridge API are not part of this model.
- index.js: the `getGroups` promise, the accessory constructor, and the `alertRooms` loop (which applies `alertGroup` to each selected group) are event-driven I/O and are left out. Whether the 'PlaybackStopped' event fires, and which await of `alertGroup` rejects, are inputs of `Legacy.AlertGroup`. A rejection of the URI call inside the listener is not modelled.
- Discovery.Init: exceptions thrown by logging or by malformed configuration after `initialized` is set are not modelled. Missing `alerts`, `rooms` or `advanced` fields are modelled as empty.
- AlertSwitch.SetOn: characteristic values are modelled as booleans, integers and strings; floating-point values, NaN and objects are not.
- Room volumes are integers passed through as given. The model does not clamp them or check them against 0–100.

=== FILE: attempt.dfy ===
/** One alert attempt on one speaker (`tryPlayNotification` and
    `waitForPlaybackToStop`). The speaker is an abstract state, every
    service call is recorded in a trace, and an oracle decides which call
    fails and what each poll of the transport state observes. */
module Attempt {
  import opened Types
  import opened Registry
  import opened Discovery

  /** The UPnP transport states a speaker reports. */
  datatype Transport = Playing | PausedPlayback | Stopped | Transitioning | NoMediaPresent

  /** The states that end the wait for the alert clip. */
  predicate Finished(t: Transport) {
    t == Stopped || t == PausedPlayback
  }

  /** What a speaker is doing: transport state, current source and its
      metadata, track number and position within it, volume. */
  datatype Speaker = Speaker(transport: Transport, uri: string, meta: Option<string>,
                             track: nat, pos: string, volume: int)

  /** The service calls of one attempt. `PollTransportInfo` is the
      transport query made while waiting for the clip to end;
      `GetTransportInfo` is the one that captures the state. */
  datatype Op =
    | GetTransportInfo | GetMediaInfo | GetPositionInfo | GetVolume
    | SetVolume(level: int) | SetUri(uri: string, meta: string) | Play
    | SeekTrack(track: nat) | SeekPosition(pos: string) | PollTransportInfo

  /** The kinds of call the trace properties talk about. */
  datatype Kind = CaptureQuery | OtherQuery | VolumeCall | PollCall | SeekCall | ControlCall

  function KindOf(o: Op): Kind {
    match o
    case GetTransportInfo => CaptureQuery
    case GetMediaInfo => OtherQuery
    case GetPositionInfo => OtherQuery
    case GetVolume => VolumeCall
    case SetVolume(_) => VolumeCall
    case PollTransportInfo => PollCall
    case SeekTrack(_) => SeekCall
    case SeekPosition(_) => SeekCall
    case _ => ControlCall
  }

  predicate IsPoll(o: Op) { o == PollTransportInfo }
  predicate IsSeek(o: Op) { o.SeekTrack? || o.SeekPosition? }

  /** One entry of the trace: a service call to an endpoint and whether
      it succeeded, or a rediscovery of a room and whether it found it. */
  datatype Event = Call(host: string, port: int, op: Op, ok: bool) | Rediscovery(name: string, found: bool)

  /** The outside world, indexed by the position in the trace at which
      something happens: whether the call there fails, what a poll there
      observes, what a broadcast search started there answers, and how
      many polls the clock lets a wait starting there make. */
  datatype Env = Env(fails: nat -> bool, playback: nat -> Transport, search: nat -> Search,
                     budget: nat -> PollBudget)

  datatype Run = Run(spk: Speaker, trace: seq<Event>)

  /** The outcome of a step: it went through (with a value), or a call
      failed and the rest of the attempt is abandoned. */
  datatype Step<+T> = Ok(run: Run, value: T) | Fault(run: Run) {
    predicate IsFailure() { Fault? }
    function PropagateFailure<U>(): Step<U>
      requires Fault?
    {
      Fault(run)
    }
    function Extract(): (Run, T)
      requires Ok?
    {
      (run, value)
    }
  }

  /** Seconds to wait for the clip, and the polling interval. */
  const PlaybackTimeout: nat := 30
  const PollIntervalMs: nat := 500
  /** The polls that fit into the timeout. */
  const MaxPolls: nat := PlaybackTimeout * 1000 / PollIntervalMs

  /** How many polls a wait makes before the clock runs out. The timeout
      is checked before each pause, so there is always a first poll; each
      pass sleeps `PollIntervalMs` first, so no more than `MaxPolls` fit;
      slow polls can leave room for fewer. */
  type PollBudget = b: nat | 1 <= b <= MaxPolls witness 1

  /** The queries of the capture phase. */
  predicate IsQuery(o: Op) {
    o == GetTransportInfo || o == GetMediaInfo || o == GetPositionInfo || o == GetVolume
  }

  /** The effect of a successful call on the speaker. Queries change
      nothing, except that a poll sees where playback has got to. */
  function Apply(spk: Speaker, op: Op, observed: Transport): (s: Speaker)
    ensures IsQuery(op) ==> s == spk
    ensures !op.SetVolume? ==> s.volume == spk.volume
    ensures IsPoll(op) ==> s == spk.(transport := observed)
  {
    if IsPoll(op) then spk.(transport := observed) else Update(spk, op)
  }

  /** The effect of every call but a poll, which is the only one that
      observes the world. */
  function Update(spk: Speaker, op: Op): Speaker {
    match op
    case SetVolume(level) => spk.(volume := level)
    case SetUri(uri, meta) => spk.(uri := uri, meta := Some(meta), track := 1, pos := "0:00:00")
    case Play => spk.(transport := Playing)
    case SeekTrack(n) => spk.(track := n)
    case SeekPosition(p) => spk.(pos := p)
    case _ => spk
  }

  /** One service call on the endpoint `dev`. */
  function Exec(env: Env, run: Run, dev: Device, op: Op): (r: Step<()>)
    ensures r.run.trace == run.trace + [Call(dev.host, dev.port, op, r.Ok?)]
    ensures r.Ok? <==> !env.fails(|run.trace|)
    ensures r.Fault? ==> r.run.spk == run.spk
    ensures r.Ok? ==> r.run.spk == Apply(run.spk, op, env.playback(|run.trace|))
  {
    var i := |run.trace|;
    if env.fails(i) then Fault(Run(run.spk, run.trace + [Call(dev.host, dev.port, op, false)]))
    else Ok(Run(Apply(run.spk, op, env.playback(i)), run.trace + [Call(dev.host, dev.port, op, true)]), ())
  }

  // ---- trace vocabulary ----

  /** `t1` extends `t0`. */
  predicate Grows(t0: seq<Event>, t1: seq<Event>) {
    |t0| <= |t1| && t1[..|t0|] == t0
  }

  /** The events a step added to the trace. */
  function New<T>(run: Run, r: Step<T>): seq<Event> {
    if |run.trace| <= |r.run.trace| then r.run.trace[|run.trace|..] else []
  }

  /** Every event is a call to the endpoint `dev`. */
  predicate To(es: seq<Event>, dev: Device) {
    forall k :: 0 <= k < |es| ==> es[k].Call? && es[k].host == dev.host && es[k].port == dev.port
  }

  /** The event is a call of that kind. */
  predicate Is(e: Event, kind: Kind) {
    e.Call? && KindOf(e.op) == kind
  }

  /** No call of that kind. */
  predicate Avoids(es: seq<Event>, kind: Kind) {
    forall k :: 0 <= k < |es| ==> !Is(es[k], kind)
  }

  /** Every event is a call of that kind. */
  predicate Only(es: seq<Event>, kind: Kind) {
    forall k :: 0 <= k < |es| ==> Is(es[k], kind)
  }

  /** The number of calls of that kind. */
  function Count(es: seq<Event>, kind: Kind): nat {
    if |es| == 0 then 0
    else (if Is(es[0], kind) then 1 else 0) + Count(es[1..], kind)
  }

  predicate FailedCall(e: Event) {
    e.Call? && !e.ok
  }

  /** The only failed calls are seeks. */
  predicate Tolerated(es: seq<Event>) {
    forall k :: 0 <= k < |es| && FailedCall(es[k]) ==> IsSeek(es[k].op)
  }

  /** How a phase may end: on success only seeks failed; on a fault the
      last call failed, was no seek, and nothing failed before it but
      seeks. */
  predicate Settled<T>(s: Step<T>, es: seq<Event>) {
    if s.Ok? then Tolerated(es)
    else |es| > 0 && FailedCall(es[|es| - 1]) && !IsSeek(es[|es| - 1].op) && Tolerated(es[..|es| - 1])
  }

  /** A step only appended calls to `dev`, and ended as `Settled` says. */
  predicate Tail<T>(run: Run, r: Step<T>, dev: Device) {
    Grows(run.trace, r.run.trace) && To(New(run, r), dev) && Settled(r, New(run, r))
  }

  /** `es` are the calls of `ops` to `dev`, in order: all of them, all
      successful, when `ok`; otherwise a prefix whose last call failed. */
  predicate Issued(es: seq<Event>, dev: Device, ops: seq<Op>, ok: bool) {
    && |es| <= |ops|
    && (forall k :: 0 <= k < |es| ==>
          es[k].Call? && es[k].host == dev.host && es[k].port == dev.port && es[k].op == ops[k])
    && (ok ==> |es| == |ops| && forall k :: 0 <= k < |es| ==> es[k].ok)
    && (!ok ==> |es| > 0 && !es[|es| - 1].ok && forall k :: 0 <= k < |es| - 1 ==> es[k].ok)
  }

  lemma {:induction false} CountAppend(a: seq<Event>, b: seq<Event>, kind: Kind)
    ensures Count(a + b, kind) == Count(a, kind) + Count(b, kind)
    decreases |a|
  {
    if |a| == 0 {
      assert a + b == b;
    } else {
      assert (a + b)[1..] == a[1..] + b;
      CountAppend(a[1..], b, kind);
    }
  }

  /** A trace with no call of a kind counts none of them. */
  lemma {:induction false} CountAvoids(es: seq<Event>, kind: Kind)
    requires Avoids(es, kind)
    ensures Count(es, kind) == 0
    decreases |es|
  {
    if |es| > 0 {
      assert Avoids(es[1..], kind) by {
        forall k | 0 <= k < |es[1..]| ensures !Is(es[1..][k], kind) {
          assert es[1..][k] == es[k + 1];
        }
      }
      CountAvoids(es[1..], kind);
    }
  }

  /** A trace of such calls only counts all of them. */
  lemma {:induction false} CountOnly(es: seq<Event>, kind: Kind)
    requires Only(es, kind)
    ensures Count(es, kind) == |es|
    decreases |es|
  {
    if |es| > 0 {
      assert Only(es[1..], kind) by {
        forall k | 0 <= k < |es[1..]| ensures Is(es[1..][k], kind) {
          assert es[1..][k] == es[k + 1];
        }
      }
      CountOnly(es[1..], kind);
    }
  }

  lemma DropFirst(a: seq<Event>, b: seq<Event>)
    requires |a| > 0
    ensures (a + b)[1..] == a[1..] + b
  {
  }

  lemma OnlyAppend(a: seq<Event>, b: seq<Event>, kind: Kind)
    requires Only(a, kind) && Only(b, kind)
    ensures Only(a + b, kind)
  {
    forall k | 0 <= k < |a + b| ensures Is((a + b)[k], kind) {
      if k < |a| { assert (a + b)[k] == a[k]; } else { assert (a + b)[k] == b[k - |a|]; }
    }
  }

  /** The events added over two consecutive phases. */
  lemma Chain(t0: seq<Event>, t1: seq<Event>, t2: seq<Event>)
    requires Grows(t0, t1) && Grows(t1, t2)
    ensures Grows(t0, t2)
    ensures t2[|t0|..] == t1[|t0|..] + t2[|t1|..]
  {
    assert t2[..|t1|] == t1;
    assert t2[..|t0|] == t1[..|t0|];
  }

  /** One call that is not a seek is a step ending as `Settled` says. */
  lemma ExecTail(env: Env, run: Run, dev: Device, op: Op)
    requires !IsSeek(op)
    ensures var s := Exec(env, run, dev, op);
            Tail(run, s, dev) && New(run, s) == [Call(dev.host, dev.port, op, s.Ok?)]
  {
    var s := Exec(env, run, dev, op);
    assert New(run, s) == [Call(dev.host, dev.port, op, s.Ok?)];
    assert New(run, s)[..0] == [];
  }

  /** Two steps in a row make one step: the first part of `Then`. */
  lemma ThenTail<T, U>(run: Run, s1: Step<T>, s2: Step<U>, dev: Device)
    requires s1.Ok? && Tail(run, s1, dev) && Tail(s1.run, s2, dev)
    ensures Tail(run, s2, dev)
    ensures New(run, s2) == New(run, s1) + New(s1.run, s2)
  {
    Chain(run.trace, s1.run.trace, s2.run.trace);
    var a, b := New(run, s1), New(s1.run, s2);
    if s2.Fault? {
      assert (a + b)[..|a + b| - 1] == a + b[..|b| - 1];
    }
  }

  lemma Then<T, U>(run: Run, s1: Step<T>, s2: Step<U>, dev: Device)
    requires s1.Ok? && Tail(run, s1, dev) && Tail(s1.run, s2, dev)
    ensures Tail(run, s2, dev)
    ensures New(run, s2) == New(run, s1) + New(s1.run, s2)
    ensures forall kind :: Avoids(New(run, s1), kind) && Avoids(New(s1.run, s2), kind) ==> Avoids(New(run, s2), kind)
    ensures forall kind :: Count(New(run, s2), kind) == Count(New(run, s1), kind) + Count(New(s1.run, s2), kind)
  {
    Chain(run.trace, s1.run.trace, s2.run.trace);
    var a, b := New(run, s1), New(s1.run, s2);
    if s2.Fault? {
      assert (a + b)[..|a + b| - 1] == a + b[..|b| - 1];
    }
    forall kind ensures Avoids(a, kind) && Avoids(b, kind) ==> Avoids(a + b, kind) {
      AvoidsAppend(a, b, kind);
    }
    forall kind ensures Count(a + b, kind) == Count(a, kind) + Count(b, kind) {
      CountAppend(a, b, kind);
    }
  }

  /** The calls of a list of operations that holds no seek settle the
      step that issued them. */
  lemma IssuedTail<T>(run: Run, r: Step<T>, dev: Device, ops: seq<Op>)
    requires Grows(run.trace, r.run.trace) && Issued(New(run, r), dev, ops, r.Ok?)
    requires forall k :: 0 <= k < |ops| ==> !IsSeek(ops[k])
    ensures Tail(run, r, dev)
  {
  }

  // ---- running a list of calls ----

  /** The effect of a list of successful calls (no polls) on the speaker. */
  function Effect(spk: Speaker, ops: seq<Op>): Speaker
    decreases |ops|
  {
    if |ops| == 0 then spk else Effect(Update(spk, ops[0]), ops[1..])
  }

  /** Queries leave the speaker as it is. */
  lemma {:induction false} EffectOfQueries(spk: Speaker, ops: seq<Op>)
    requires forall k :: 0 <= k < |ops| ==> IsQuery(ops[k])
    ensures Effect(spk, ops) == spk
    decreases |ops|
  {
    if |ops| > 0 {
      assert forall k :: 0 <= k < |ops[1..]| ==> ops[1..][k] == ops[k + 1];
      EffectOfQueries(spk, ops[1..]);
    }
  }

  /** Awaiting calls one after the other: the first failure abandons the
      rest. */
  function ExecAll(env: Env, run: Run, dev: Device, ops: seq<Op>): (r: Step<()>)
    requires forall k :: 0 <= k < |ops| ==> !IsPoll(ops[k])
    ensures Grows(run.trace, r.run.trace)
    ensures r.Ok? ==> r.run.spk == Effect(run.spk, ops)
    ensures (forall k :: 0 <= k < |ops| ==> IsQuery(ops[k])) ==> r.run.spk == run.spk
    decreases |ops|
  {
    if |ops| == 0 then Ok(run, ())
    else
      var s := Exec(env, run, dev, ops[0]);
      if s.Fault? then s
      else
        assert forall k :: 0 <= k < |ops[1..]| ==> ops[1..][k] == ops[k + 1];
        var r := ExecAll(env, s.run, dev, ops[1..]);
        Chain(run.trace, s.run.trace, r.run.trace);
        r
  }

  /** A successful first call in front of the calls of the rest of the
      list. */
  lemma IssuedCons(e: Event, es: seq<Event>, dev: Device, ops: seq<Op>, ok: bool)
    requires |ops| > 0 && e == Call(dev.host, dev.port, ops[0], true)
    requires Issued(es, dev, ops[1..], ok)
    ensures Issued([e] + es, dev, ops, ok)
  {
    var all := [e] + es;
    assert forall k :: 0 < k < |all| ==> all[k] == es[k - 1] && ops[k] == ops[1..][k - 1];
  }

  /** The calls `ExecAll` makes are those of the list, in order, up to
      and including the first that fails. */
  lemma {:induction false} ExecAllTrace(env: Env, run: Run, dev: Device, ops: seq<Op>)
    requires forall k :: 0 <= k < |ops| ==> !IsPoll(ops[k])
    ensures var r := ExecAll(env, run, dev, ops);
            Issued(New(run, r), dev, ops, r.Ok?)
    decreases |ops|
  {
    var r := ExecAll(env, run, dev, ops);
    if |ops| == 0 {
      assert New(run, r) == [];
    } else {
      var s := Exec(env, run, dev, ops[0]);
      if s.Fault? {
        assert New(run, s) == [Call(dev.host, dev.port, ops[0], false)];
      } else {
        assert forall k :: 0 <= k < |ops[1..]| ==> ops[1..][k] == ops[k + 1];
        ExecAllTrace(env, s.run, dev, ops[1..]);
        Chain(run.trace, s.run.trace, r.run.trace);
        assert New(run, r) == [Call(dev.host, dev.port, ops[0], true)] + New(s.run, r);
        IssuedCons(Call(dev.host, dev.port, ops[0], true), New(s.run, r), dev, ops, r.Ok?);
      }
    }
  }

  /** A list of calls none of which fails runs to the end. */
  lemma {:induction false} ExecAllClean(env: Env, run: Run, dev: Device, ops: seq<Op>)
    requires forall k :: 0 <= k < |ops| ==> !IsPoll(ops[k])
    requires forall k :: |run.trace| <= k < |run.trace| + |ops| ==> !env.fails(k)
    ensures var r := ExecAll(env, run, dev, ops);
            r.Ok? && |r.run.trace| == |run.trace| + |ops|
    decreases |ops|
  {
    if |ops| > 0 {
      var s := Exec(env, run, dev, ops[0]);
      assert forall k :: 0 <= k < |ops[1..]| ==> ops[1..][k] == ops[k + 1];
      ExecAllClean(env, s.run, dev, ops[1..]);
    }
  }

  // ---- waiting for the clip ----

  /** `waitForPlaybackToStop`: poll until the speaker reports STOPPED or
      PAUSED_PLAYBACK, at most `fuel` times, as many as the clock allows.
      Running out of polls is not an error; only a failing poll is. */
  function Wait(env: Env, run: Run, dev: Device, fuel: nat): (r: Step<()>)
    ensures Grows(run.trace, r.run.trace)
    ensures |r.run.trace| - |run.trace| <= fuel
    ensures r.Ok? && |r.run.trace| - |run.trace| < fuel ==> Finished(r.run.spk.transport)
    ensures (forall k :: |run.trace| <= k < |run.trace| + fuel ==> !env.fails(k)) ==> r.Ok?
    ensures r.run.spk == run.spk.(transport := r.run.spk.transport)
    decreases fuel
  {
    if fuel == 0 then Ok(run, ())
    else
      var s := Exec(env, run, dev, PollTransportInfo);
      if s.Fault? || Finished(s.run.spk.transport) then s
      else
        var r := Wait(env, s.run, dev, fuel - 1);
        assert r.run.trace[..|s.run.trace|] == s.run.trace;
        assert r.run.trace[..|run.trace|] == s.run.trace[..|run.trace|];
        r
  }

  /** Waiting stops at the first poll that reports STOPPED or
      PAUSED_PLAYBACK: every poll but the last one succeeded and saw the
      clip still going. */
  lemma {:induction false} WaitStops(env: Env, run: Run, dev: Device, fuel: nat)
    ensures var r := Wait(env, run, dev, fuel);
            forall k :: |run.trace| <= k < |r.run.trace| - 1 ==> !env.fails(k) && !Finished(env.playback(k))
    decreases fuel
  {
    if fuel > 0 {
      var s := Exec(env, run, dev, PollTransportInfo);
      if !(s.Fault? || Finished(s.run.spk.transport)) {
        WaitStops(env, s.run, dev, fuel - 1);
      }
    }
  }

  /** The calls made while waiting: only polls, all to the speaker being
      waited on, and a failing poll ends the wait. */
  lemma {:induction false} WaitTrace(env: Env, run: Run, dev: Device, fuel: nat)
    ensures var r := Wait(env, run, dev, fuel);
            Tail(run, r, dev) && Only(New(run, r), PollCall)
    decreases fuel
  {
    var r := Wait(env, run, dev, fuel);
    if fuel == 0 {
      assert New(run, r) == [];
    } else {
      var s := Exec(env, run, dev, PollTransportInfo);
      ExecTail(env, run, dev, PollTransportInfo);
      if s.Fault? || Finished(s.run.spk.transport) {
        assert r == s;
      } else {
        var w := Wait(env, s.run, dev, fuel - 1);
        assert r == w;
        WaitTrace(env, s.run, dev, fuel - 1);
        ThenTail(run, s, w, dev);
        OnlyAppend(New(run, s), New(s.run, w), PollCall);
      }
    }
  }

  // ---- the phases of one attempt ----

  /** What an attempt remembers of the speaker before interrupting it;
      `previousVolume` is read only when the room has a volume. */
  datatype Snapshot = Snapshot(transport: Transport, uri: string, meta: Option<string>,
                               track: nat, pos: string, previousVolume: Option<int>)

  /** Playback is resumed only when the speaker was playing and a source
      URI was captured. */
  predicate Resumes(snap: Snapshot) {
    snap.transport == Playing && snap.uri != ""
  }

  function CaptureOps(volume: Option<int>): seq<Op> {
    [GetTransportInfo, GetMediaInfo, GetPositionInfo] + (if volume.Some? then [GetVolume] else [])
  }

  /** Read transport, media and position info, then the volume when a room
      volume is given. The replies are the speaker's state, which queries
      do not change, so the snapshot is the state before the alert. */
  function Capture(env: Env, run: Run, dev: Device, volume: Option<int>): (r: Step<Snapshot>)
    ensures Grows(run.trace, r.run.trace)
    ensures r.run.spk == run.spk
    ensures r.Ok? ==> var snap := r.value;
              && snap.transport == run.spk.transport && snap.uri == run.spk.uri
              && snap.meta == run.spk.meta && snap.track == run.spk.track && snap.pos == run.spk.pos
              && snap.previousVolume == (if volume.Some? then Some(run.spk.volume) else None)
  {
    var ops := CaptureOps(volume);
    var done := ExecAll(env, run, dev, ops);
    EffectOfQueries(run.spk, ops);
    var spk := run.spk;
    if done.Fault? then Fault(done.run)
    else
      var previous := if volume.Some? then Some(spk.volume) else None;
      Ok(done.run, Snapshot(spk.transport, spk.uri, spk.meta, spk.track, spk.pos, previous))
  }

  function InterruptOps(soundUrl: string, volume: Option<int>): seq<Op> {
    (if volume.Some? then [SetVolume(volume.value)] else []) + [SetUri(soundUrl, ""), Play]
  }

  /** Set the room volume when one is given, then the alert URI with
      empty metadata, then start playing. */
  function Interrupt(env: Env, run: Run, dev: Device, soundUrl: string, volume: Option<int>): (r: Step<()>)
    ensures Grows(run.trace, r.run.trace)
    ensures r.Ok? ==> && r.run.spk.transport == Playing
                      && r.run.spk.uri == soundUrl && r.run.spk.meta == Some("")
                      && r.run.spk.volume == volume.GetOr(run.spk.volume)
  {
    var ops := InterruptOps(soundUrl, volume);
    EffectOfInterrupt(run.spk, soundUrl, volume);
    ExecAll(env, run, dev, ops)
  }

  /** Loading a URI and playing it. */
  lemma EffectOfLoadAndPlay(spk: Speaker, uri: string, meta: string)
    ensures Effect(spk, [SetUri(uri, meta), Play])
            == spk.(uri := uri, meta := Some(meta), track := 1, pos := "0:00:00", transport := Playing)
  {
    var ops := [SetUri(uri, meta), Play];
    var s1 := spk.(uri := uri, meta := Some(meta), track := 1, pos := "0:00:00");
    assert Update(spk, ops[0]) == s1;
    assert ops[1..] == [Play];
    assert Effect(spk, ops) == Effect(s1, [Play]);
    assert [Play][1..] == [];
    assert Effect(s1, [Play]) == Effect(s1.(transport := Playing), []);
  }

  lemma EffectOfInterrupt(spk: Speaker, soundUrl: string, volume: Option<int>)
    ensures var s := Effect(spk, InterruptOps(soundUrl, volume));
            && s.transport == Playing && s.uri == soundUrl && s.meta == Some("")
            && s.volume == volume.GetOr(spk.volume)
  {
    var ops := InterruptOps(soundUrl, volume);
    var tail := [SetUri(soundUrl, ""), Play];
    if volume.Some? {
      var s0 := spk.(volume := volume.value);
      assert ops[0] == SetVolume(volume.value) && ops[1..] == tail;
      assert Effect(spk, ops) == Effect(s0, tail);
      EffectOfLoadAndPlay(s0, soundUrl, "");
    } else {
      assert ops == tail;
      EffectOfLoadAndPlay(spk, soundUrl, "");
    }
  }

  /** Seek to the captured track, then to the captured position. A failing
      seek is swallowed and skips what is left of the seeking. */
  function Seek(env: Env, run: Run, dev: Device, track: nat, pos: string): (r: Run)
    ensures Grows(run.trace, r.trace)
    ensures |r.trace| == |run.trace| + (if env.fails(|run.trace|) then 1 else 2)
    ensures r.spk.(track := run.spk.track, pos := run.spk.pos) == run.spk
    ensures !env.fails(|run.trace|) ==> r.spk.track == track
    ensures !env.fails(|run.trace|) && !env.fails(|run.trace| + 1) ==> r.spk.pos == pos
  {
    var s := Exec(env, run, dev, SeekTrack(track));
    if s.Fault? then
      assert s.run.trace[..|run.trace|] == run.trace;
      s.run
    else
      assert s.run.spk == run.spk.(track := track);
      var s2 := Exec(env, s.run, dev, SeekPosition(pos));
      assert s2.run.spk == s.run.spk || s2.run.spk == s.run.spk.(pos := pos);
      assert s2.Ok? ==> s2.run.spk == s.run.spk.(pos := pos);
      Chain(run.trace, s.run.trace, s2.run.trace);
      s2.run
  }

  function VolumeOps(snap: Snapshot): seq<Op> {
    if snap.previousVolume.Some? then [SetVolume(snap.previousVolume.value)] else []
  }

  /** Resume the captured source (metadata defaulting to empty), seeking
      best-effort, and play. */
  function Resume(env: Env, run: Run, dev: Device, snap: Snapshot): (r: Step<()>)
    ensures r.Ok? ==> && r.run.spk.transport == Playing && r.run.spk.uri == snap.uri
                      && r.run.spk.meta == Some(snap.meta.GetOr(""))
                      && r.run.spk.volume == run.spk.volume
  {
    var u :- ExecAll(env, run, dev, [SetUri(snap.uri, snap.meta.GetOr(""))]);
    SeekAndPlay(env, u.0, dev, snap.track, snap.pos)
  }

  /** Best-effort seeking, then play: a seek that did not fail took the
      speaker to its target. */
  function SeekAndPlay(env: Env, run: Run, dev: Device, track: nat, pos: string): (r: Step<()>)
    ensures r.Ok? ==> r.run.spk.transport == Playing
    ensures r.run.spk.(transport := run.spk.transport, track := run.spk.track, pos := run.spk.pos) == run.spk
    ensures r.Ok? && !env.fails(|run.trace|) ==> r.run.spk.track == track
    ensures r.Ok? && !env.fails(|run.trace|) && !env.fails(|run.trace| + 1) ==> r.run.spk.pos == pos
  {
    var sk := Seek(env, run, dev, track, pos);
    ExecAll(env, sk, dev, [Play])
  }

  /** Put the volume back when it was changed, then resume when the
      speaker was playing a source before the alert. */
  function Restore(env: Env, run: Run, dev: Device, snap: Snapshot): (r: Step<()>)
    ensures r.Ok? ==> r.run.spk.volume == snap.previousVolume.GetOr(run.spk.volume)
    ensures r.Ok? && Resumes(snap) ==>
              && r.run.spk.transport == Playing && r.run.spk.uri == snap.uri
              && r.run.spk.meta == Some(snap.meta.GetOr(""))
    ensures r.Ok? && !Resumes(snap) ==>
              r.run.spk == run.spk.(volume := snap.previousVolume.GetOr(run.spk.volume))
  {
    var v :- ExecAll(env, run, dev, VolumeOps(snap));
    if Resumes(snap) then Resume(env, v.0, dev, snap) else Ok(v.0, ())
  }

  /** Waiting, then restoring: a timeout still restores. */
  function Finish(env: Env, run: Run, dev: Device, snap: Snapshot): (r: Step<()>)
    ensures r.Ok? ==> r.run.spk.volume == snap.previousVolume.GetOr(run.spk.volume)
    ensures r.Ok? && Resumes(snap) ==>
              && r.run.spk.transport == Playing && r.run.spk.uri == snap.uri
              && r.run.spk.meta == Some(snap.meta.GetOr(""))
    ensures r.Ok? && !Resumes(snap) ==> r.run.spk.uri == run.spk.uri && r.run.spk.meta == run.spk.meta
  {
    var w :- Wait(env, run, dev, env.budget(|run.trace|));
    Restore(env, w.0, dev, snap)
  }

  /** `tryPlayNotification`: capture, interrupt, wait for the clip (a
      timeout is no error), restore. Any failing call but a seek abandons
      the attempt. A completed attempt leaves the volume as it found it,
      and resumes the previous source exactly when it was playing one. */
  function TryPlay(env: Env, run: Run, dev: Device, soundUrl: string, volume: Option<int>): (r: Step<()>)
    ensures r.Ok? ==> r.run.spk.volume == run.spk.volume
    ensures r.Ok? && run.spk.transport == Playing && run.spk.uri != "" ==>
              && r.run.spk.transport == Playing && r.run.spk.uri == run.spk.uri
              && r.run.spk.meta == Some(run.spk.meta.GetOr(""))
    ensures r.Ok? && !(run.spk.transport == Playing && run.spk.uri != "") ==>
              r.run.spk.uri == soundUrl && r.run.spk.meta == Some("")
  {
    var c :- Capture(env, run, dev, volume);
    AfterCapture(env, c.0, dev, soundUrl, volume, c.1)
  }

  /** Everything after the capture: interrupt, wait, restore. */
  function AfterCapture(env: Env, run: Run, dev: Device, soundUrl: string, volume: Option<int>, snap: Snapshot)
    : (r: Step<()>)
    ensures r.Ok? ==> r.run.spk.volume == snap.previousVolume.GetOr(volume.GetOr(run.spk.volume))
    ensures r.Ok? && Resumes(snap) ==>
              && r.run.spk.transport == Playing && r.run.spk.uri == snap.uri
              && r.run.spk.meta == Some(snap.meta.GetOr(""))
    ensures r.Ok? && !Resumes(snap) ==> r.run.spk.uri == soundUrl && r.run.spk.meta == Some("")
  {
    var i :- Interrupt(env, run, dev, soundUrl, volume);
    Finish(env, i.0, dev, snap)
  }

  // ---- the calls of one attempt ----

  lemma AvoidsAppend(a: seq<Event>, b: seq<Event>, kind: Kind)
    ensures Avoids(a + b, kind) <==> Avoids(a, kind) && Avoids(b, kind)
  {
    if Avoids(a + b, kind) {
      forall k | 0 <= k < |b| ensures !Is(b[k], kind) {
        assert (a + b)[|a| + k] == b[k];
      }
      forall k | 0 <= k < |a| ensures !Is(a[k], kind) {
        assert (a + b)[k] == a[k];
      }
    }
  }

  /** Calls issued from a list of operations avoid a kind from position
      `from` on when the list does. */
  lemma IssuedAvoids(es: seq<Event>, dev: Device, ops: seq<Op>, ok: bool, kind: Kind, from: nat)
    requires Issued(es, dev, ops, ok) && from <= |es|
    requires forall k :: from <= k < |ops| ==> KindOf(ops[k]) != kind
    ensures Avoids(es[from..], kind)
  {
    forall k | 0 <= k < |es[from..]| ensures !Is(es[from..][k], kind) {
      assert es[from..][k] == es[from + k];
    }
  }

  /** The calls issued from the capture's list: the capturing transport
      query first, no other, and the volume only for a room volume. */
  lemma CaptureCalls(es: seq<Event>, dev: Device, volume: Option<int>, ok: bool)
    requires Issued(es, dev, CaptureOps(volume), ok)
    ensures |es| > 0 && es[0].op == GetTransportInfo
    ensures Avoids(es[1..], CaptureQuery) && Avoids(es, PollCall)
    ensures volume.None? ==> Avoids(es, VolumeCall)
  {
    var ops := CaptureOps(volume);
    IssuedAvoids(es, dev, ops, ok, CaptureQuery, 1);
    IssuedAvoids(es, dev, ops, ok, PollCall, 0);
    assert es[0..] == es;
    if volume.None? {
      IssuedAvoids(es, dev, ops, ok, VolumeCall, 0);
    }
  }

  /** The queries of the capture: first the state-capturing transport
      query, then no other; the volume only for a room volume. */
  lemma CaptureTrace(env: Env, run: Run, dev: Device, volume: Option<int>)
    ensures var r := Capture(env, run, dev, volume);
            Issued(New(run, r), dev, CaptureOps(volume), r.Ok?)
    ensures var r := Capture(env, run, dev, volume);
            var es := New(run, r);
            && Tail(run, r, dev)
            && |es| > 0 && es[0].op == GetTransportInfo
            && Avoids(es[1..], CaptureQuery) && Avoids(es, PollCall)
            && (volume.None? ==> Avoids(es, VolumeCall))
  {
    var ops := CaptureOps(volume);
    var done := ExecAll(env, run, dev, ops);
    ExecAllTrace(env, run, dev, ops);
    IssuedTail(run, done, dev, ops);
    CaptureCalls(New(run, done), dev, volume, done.Ok?);
  }

  /** Calls issued from a list with no operation of three kinds avoid
      all three. */
  lemma IssuedAvoidsThree(es: seq<Event>, dev: Device, ops: seq<Op>, ok: bool, k1: Kind, k2: Kind, k3: Kind)
    requires Issued(es, dev, ops, ok)
    requires forall k :: 0 <= k < |ops| ==> KindOf(ops[k]) != k1 && KindOf(ops[k]) != k2 && KindOf(ops[k]) != k3
    ensures Avoids(es, k1) && Avoids(es, k2) && Avoids(es, k3)
  {
  }

  /** The interrupting calls, in order: the room volume (if any), the
      alert URI, play. */
  lemma InterruptTrace(env: Env, run: Run, dev: Device, soundUrl: string, volume: Option<int>)
    ensures var r := Interrupt(env, run, dev, soundUrl, volume);
            Issued(New(run, r), dev, InterruptOps(soundUrl, volume), r.Ok?)
    ensures var r := Interrupt(env, run, dev, soundUrl, volume);
            var es := New(run, r);
            && Tail(run, r, dev) && Avoids(es, CaptureQuery) && Avoids(es, PollCall)
            && (volume.None? ==> Avoids(es, VolumeCall))
  {
    var ops := InterruptOps(soundUrl, volume);
    var done := ExecAll(env, run, dev, ops);
    ExecAllTrace(env, run, dev, ops);
    InterruptOpsKinds(soundUrl, volume);
    IssuedTail(run, done, dev, ops);
    var es := New(run, done);
    if volume.None? {
      IssuedAvoidsThree(es, dev, ops, done.Ok?, CaptureQuery, PollCall, VolumeCall);
    } else {
      IssuedAvoidsThree(es, dev, ops, done.Ok?, CaptureQuery, PollCall, SeekCall);
    }
  }

  lemma InterruptOpsKinds(soundUrl: string, volume: Option<int>)
    ensures var ops := InterruptOps(soundUrl, volume);
            forall k :: 0 <= k < |ops| ==>
              && !IsSeek(ops[k]) && KindOf(ops[k]) != CaptureQuery
              && KindOf(ops[k]) != PollCall && KindOf(ops[k]) != SeekCall
              && (volume.None? ==> KindOf(ops[k]) != VolumeCall)
  {
  }

  lemma WaitAvoids(env: Env, run: Run, dev: Device, fuel: nat)
    ensures var r := Wait(env, run, dev, fuel);
            var es := New(run, r);
            && Tail(run, r, dev) && Avoids(es, CaptureQuery) && Avoids(es, VolumeCall)
            && Count(es, PollCall) == |es| <= fuel
  {
    WaitTrace(env, run, dev, fuel);
    CountOnly(New(run, Wait(env, run, dev, fuel)), PollCall);
  }

  /** Seeking only issues seeks, whose failures are tolerated. */
  lemma SeekTrace(env: Env, run: Run, dev: Device, track: nat, pos: string)
    ensures var r := Ok(Seek(env, run, dev, track, pos), ());
            var es := New(run, r);
            Tail(run, r, dev) && Only(es, SeekCall)
  {
    var s := Exec(env, run, dev, SeekTrack(track));
    assert New(run, s) == [Call(dev.host, dev.port, SeekTrack(track), s.Ok?)];
    if s.Ok? {
      var s2 := Exec(env, s.run, dev, SeekPosition(pos));
      Chain(run.trace, s.run.trace, s2.run.trace);
      assert New(run, Ok(s2.run, ())) == [Call(dev.host, dev.port, SeekTrack(track), true),
                                         Call(dev.host, dev.port, SeekPosition(pos), s2.Ok?)];
    }
  }

  /** Calls of one kind avoid every other kind. */
  lemma OnlySeeks(es: seq<Event>)
    requires Only(es, SeekCall)
    ensures Avoids(es, CaptureQuery) && Avoids(es, PollCall) && Avoids(es, VolumeCall)
  {
  }

  lemma SeekAndPlayTrace(env: Env, run: Run, dev: Device, track: nat, pos: string)
    ensures var r := SeekAndPlay(env, run, dev, track, pos);
            var es := New(run, r);
            && Tail(run, r, dev) && Avoids(es, CaptureQuery) && Avoids(es, PollCall) && Avoids(es, VolumeCall)
  {
    var sk := Ok(Seek(env, run, dev, track, pos), ());
    SeekTrace(env, run, dev, track, pos);
    var a := New(run, sk);
    OnlySeeks(a);
    var p := ExecAll(env, sk.run, dev, [Play]);
    ExecAllTrace(env, sk.run, dev, [Play]);
    IssuedTail(sk.run, p, dev, [Play]);
    var b := New(sk.run, p);
    IssuedAvoidsThree(b, dev, [Play], p.Ok?, CaptureQuery, PollCall, VolumeCall);
    ThenTail(run, sk, p, dev);
    AvoidsAppend(a, b, CaptureQuery);
    AvoidsAppend(a, b, PollCall);
    AvoidsAppend(a, b, VolumeCall);
  }

  lemma ResumeTrace(env: Env, run: Run, dev: Device, snap: Snapshot)
    ensures var r := Resume(env, run, dev, snap);
            var es := New(run, r);
            && Tail(run, r, dev) && Avoids(es, CaptureQuery) && Avoids(es, PollCall) && Avoids(es, VolumeCall)
  {
    var ops := [SetUri(snap.uri, snap.meta.GetOr(""))];
    var u := ExecAll(env, run, dev, ops);
    ExecAllTrace(env, run, dev, ops);
    IssuedTail(run, u, dev, ops);
    IssuedAvoidsThree(New(run, u), dev, ops, u.Ok?, CaptureQuery, PollCall, VolumeCall);
    if u.Ok? {
      var p := SeekAndPlay(env, u.run, dev, snap.track, snap.pos);
      SeekAndPlayTrace(env, u.run, dev, snap.track, snap.pos);
      ThenTail(run, u, p, dev);
      AvoidsAppend(New(run, u), New(u.run, p), CaptureQuery);
      AvoidsAppend(New(run, u), New(u.run, p), PollCall);
      AvoidsAppend(New(run, u), New(u.run, p), VolumeCall);
    }
  }

  lemma RestoreTrace(env: Env, run: Run, dev: Device, snap: Snapshot)
    ensures var r := Restore(env, run, dev, snap);
            var es := New(run, r);
            && Tail(run, r, dev) && Avoids(es, CaptureQuery) && Avoids(es, PollCall)
            && (snap.previousVolume.None? ==> Avoids(es, VolumeCall))
  {
    var ops := VolumeOps(snap);
    var v := ExecAll(env, run, dev, ops);
    ExecAllTrace(env, run, dev, ops);
    IssuedTail(run, v, dev, ops);
    var a := New(run, v);
    IssuedAvoidsThree(a, dev, ops, v.Ok?, CaptureQuery, PollCall, SeekCall);
    if snap.previousVolume.None? {
      assert a == [];
    }
    if v.Ok? && Resumes(snap) {
      var u := Resume(env, v.run, dev, snap);
      ResumeTrace(env, v.run, dev, snap);
      ThenTail(run, v, u, dev);
      var b := New(v.run, u);
      AvoidsAppend(a, b, CaptureQuery);
      AvoidsAppend(a, b, PollCall);
      AvoidsAppend(a, b, VolumeCall);
    }
  }

  /** After the wait, restoration runs whether the clip ended or the
      clock ran out; the polls stay within the budget the clock left, and
      fewer polls than that mean the clip ended. */
  lemma FinishTrace(env: Env, run: Run, dev: Device, snap: Snapshot)
    ensures var r := Finish(env, run, dev, snap);
            var es := New(run, r);
            var budget := env.budget(|run.trace|);
            && Tail(run, r, dev) && Avoids(es, CaptureQuery)
            && (snap.previousVolume.None? ==> Avoids(es, VolumeCall))
            && Count(es, PollCall) <= budget <= MaxPolls
            && (r.Ok? && !Resumes(snap) && Count(es, PollCall) < budget ==> Finished(r.run.spk.transport))
  {
    var w := Wait(env, run, dev, env.budget(|run.trace|));
    WaitAvoids(env, run, dev, env.budget(|run.trace|));
    if w.Ok? {
      var r := Restore(env, w.run, dev, snap);
      RestoreTrace(env, w.run, dev, snap);
      Then(run, w, r, dev);
      CountAvoids(New(w.run, r), PollCall);
    }
  }

  /** The wait starts once the interrupting calls went through. */
  lemma AfterCaptureTrace(env: Env, run: Run, dev: Device, soundUrl: string, volume: Option<int>, snap: Snapshot)
    ensures var r := AfterCapture(env, run, dev, soundUrl, volume, snap);
            var es := New(run, r);
            var budget := env.budget(|run.trace| + |InterruptOps(soundUrl, volume)|);
            && Tail(run, r, dev) && Avoids(es, CaptureQuery)
            && (volume.None? && snap.previousVolume.None? ==> Avoids(es, VolumeCall))
            && Count(es, PollCall) <= budget
            && (r.Ok? && !Resumes(snap) && Count(es, PollCall) < budget ==> Finished(r.run.spk.transport))
  {
    var i := Interrupt(env, run, dev, soundUrl, volume);
    InterruptTrace(env, run, dev, soundUrl, volume);
    if i.Ok? {
      var f := Finish(env, i.run, dev, snap);
      FinishTrace(env, i.run, dev, snap);
      Then(run, i, f, dev);
      CountAvoids(New(run, i), PollCall);
    } else {
      CountAvoids(New(run, i), PollCall);
    }
  }

  /** The trace position at which an attempt that starts at `from`
      begins to wait, once its capture and interrupt calls went through. */
  function WaitsAt(from: nat, soundUrl: string, volume: Option<int>): nat {
    from + |CaptureOps(volume)| + |InterruptOps(soundUrl, volume)|
  }

  /** The calls of one attempt, all to its endpoint: it opens with the one
      transport query that captures the state and makes no other; it
      touches the volume only for a room volume; a failing call other
      than a seek is the last call it makes; it polls at most `MaxPolls`
      times (`TryPlayBudget` says how many the clock allows). */
  lemma TryPlayTrace(env: Env, run: Run, dev: Device, soundUrl: string, volume: Option<int>)
    ensures var r := TryPlay(env, run, dev, soundUrl, volume);
            var es := New(run, r);
            && Grows(run.trace, r.run.trace) && To(es, dev) && Settled(r, es)
            && |es| > 0 && es[0].op == GetTransportInfo && Count(es, CaptureQuery) == 1
            && (volume.None? ==> Avoids(es, VolumeCall))
            && Count(es, PollCall) <= MaxPolls
  {
    var c := Capture(env, run, dev, volume);
    CaptureTrace(env, run, dev, volume);
    var es := New(run, TryPlay(env, run, dev, soundUrl, volume));
    var ce := New(run, c);
    if c.Ok? {
      var a := AfterCapture(env, c.run, dev, soundUrl, volume, c.value);
      AfterCaptureTrace(env, c.run, dev, soundUrl, volume, c.value);
      Then(run, c, a, dev);
      DropFirst(ce, New(c.run, a));
      AvoidsAppend(ce[1..], New(c.run, a), CaptureQuery);
      CountAvoids(ce, PollCall);
    } else {
      CountAvoids(ce, PollCall);
    }
    assert es == [es[0]] + es[1..];
    CountAppend([es[0]], es[1..], CaptureQuery);
    CountAvoids(es[1..], CaptureQuery);
    assert Count([es[0]], CaptureQuery) == 1 by { assert [es[0]][1..] == []; }
  }

  /** A completed capture made all of its calls. */
  lemma CaptureLength(env: Env, run: Run, dev: Device, volume: Option<int>)
    ensures var c := Capture(env, run, dev, volume);
            c.Ok? ==> |c.run.trace| == |run.trace| + |CaptureOps(volume)|
  {
    ExecAllLength(env, run, dev, CaptureOps(volume));
  }

  /** An attempt polls no more often than the clock lets the wait that
      starts after its capture and interrupt calls, and a completed attempt
      that did not resume and polled fewer times than that left the
      speaker stopped or paused: only the clock running out ends a wait on
      a speaker that still plays. */
  lemma TryPlayBudget(env: Env, run: Run, dev: Device, soundUrl: string, volume: Option<int>)
    ensures var r := TryPlay(env, run, dev, soundUrl, volume);
            var es := New(run, r);
            var budget := env.budget(WaitsAt(|run.trace|, soundUrl, volume));
            && Count(es, PollCall) <= budget
            && (r.Ok? && !(run.spk.transport == Playing && run.spk.uri != "") && Count(es, PollCall) < budget
                ==> Finished(r.run.spk.transport))
  {
    var c := Capture(env, run, dev, volume);
    CapturePollsNot(env, run, dev, volume);
    CountAvoids(New(run, c), PollCall);
    if c.Ok? {
      CaptureLength(env, run, dev, volume);
      var a := AfterCapture(env, c.run, dev, soundUrl, volume, c.value);
      AfterCaptureWaits(env, c.run, dev, soundUrl, volume, c.value);
      Chain(run.trace, c.run.trace, a.run.trace);
      CountAppend(New(run, c), New(c.run, a), PollCall);
    }
  }

  /** A world in which no call fails and the clip keeps playing, but the
      clock leaves room for one poll only (the poll took most of the
      timeout). */
  function SlowClock(): Env {
    Env(i => false, i => Playing, i => SearchFailed, i => 1)
  }

  lemma SlowClockCapture(run: Run, dev: Device)
    ensures var c := Capture(SlowClock(), run, dev, None);
            c.Ok? && |c.run.trace| == |run.trace| + 3 && c.value.previousVolume == None
  {
    ExecAllClean(SlowClock(), run, dev, CaptureOps(None));
  }

  lemma SlowClockInterrupt(run: Run, dev: Device, soundUrl: string)
    ensures var i := Interrupt(SlowClock(), run, dev, soundUrl, None);
            i.Ok? && |i.run.trace| == |run.trace| + 2
  {
    ExecAllClean(SlowClock(), run, dev, InterruptOps(soundUrl, None));
  }

  lemma SlowClockWait(run: Run, dev: Device)
    ensures var w := Wait(SlowClock(), run, dev, SlowClock().budget(|run.trace|));
            w.Ok? && |w.run.trace| == |run.trace| + 1 && w.run.spk.transport == Playing
  {
    var p := Exec(SlowClock(), run, dev, PollTransportInfo);
    assert Wait(SlowClock(), run, dev, 1) == Wait(SlowClock(), p.run, dev, 0);
  }

  /** With that clock the wait ends with the clip still playing: the
      attempt completes after one poll, well short of `MaxPolls`, without
      the speaker having stopped. */
  lemma TimeoutBeforeMaxPolls(run: Run, dev: Device, soundUrl: string)
    requires run.spk.transport == Stopped
    ensures var r := TryPlay(SlowClock(), run, dev, soundUrl, None);
            && r.Ok? && |r.run.trace| == |run.trace| + 6 && r.run.trace[|run.trace| + 5].op == PollTransportInfo
            && r.run.spk.transport == Playing && 1 < MaxPolls
  {
    var env := SlowClock();
    var c := Capture(env, run, dev, None);
    SlowClockCapture(run, dev);
    var i := Interrupt(env, c.run, dev, soundUrl, None);
    SlowClockInterrupt(c.run, dev, soundUrl);
    var w := Wait(env, i.run, dev, env.budget(|i.run.trace|));
    SlowClockWait(i.run, dev);
    WaitTrace(env, i.run, dev, env.budget(|i.run.trace|));
    assert New(i.run, w)[0] == w.run.trace[|run.trace| + 5];
    assert ExecAll(env, w.run, dev, VolumeOps(c.value)) == Ok(w.run, ());
  }

  lemma AfterCaptureWaits(env: Env, run: Run, dev: Device, soundUrl: string, volume: Option<int>, snap: Snapshot)
    ensures var r := AfterCapture(env, run, dev, soundUrl, volume, snap);
            var es := New(run, r);
            var budget := env.budget(|run.trace| + |InterruptOps(soundUrl, volume)|);
            && Grows(run.trace, r.run.trace) && Count(es, PollCall) <= budget
            && (r.Ok? && !Resumes(snap) && Count(es, PollCall) < budget ==> Finished(r.run.spk.transport))
  {
    AfterCaptureTrace(env, run, dev, soundUrl, volume, snap);
  }

  // ---- where polling stops ----

  /** Every poll that another poll follows succeeded and saw the clip
      still going: polling stops at the first STOPPED or PAUSED_PLAYBACK.
      `base` is the trace position of `es[0]`. */
  ghost predicate PollsUntilFinished(env: Env, base: nat, es: seq<Event>) {
    forall k :: 0 <= k < |es| - 1 && Is(es[k], PollCall) && Is(es[k + 1], PollCall) ==>
      !env.fails(base + k) && !Finished(env.playback(base + k))
  }

  lemma WaitPolls(env: Env, run: Run, dev: Device, fuel: nat)
    ensures PollsUntilFinished(env, |run.trace|, New(run, Wait(env, run, dev, fuel)))
  {
    WaitStops(env, run, dev, fuel);
  }

  lemma NoPolls(env: Env, base: nat, es: seq<Event>)
    requires Avoids(es, PollCall)
    ensures PollsUntilFinished(env, base, es)
  {
  }

  /** A phase without polls followed by one that keeps the promise keeps
      it as a whole. */
  lemma PollsThen<T, U>(env: Env, run: Run, s1: Step<T>, s2: Step<U>)
    requires Grows(run.trace, s1.run.trace) && Grows(s1.run.trace, s2.run.trace)
    requires Avoids(New(run, s1), PollCall) && PollsUntilFinished(env, |s1.run.trace|, New(s1.run, s2))
    ensures PollsUntilFinished(env, |run.trace|, New(run, s2))
  {
    Chain(run.trace, s1.run.trace, s2.run.trace);
    PollsAfter(env, |run.trace|, New(run, s1), New(s1.run, s2));
  }

  /** Calls without polls in front of a trace keep its polls' promise. */
  lemma PollsAfter(env: Env, base: nat, a: seq<Event>, b: seq<Event>)
    requires Avoids(a, PollCall) && PollsUntilFinished(env, base + |a|, b)
    ensures PollsUntilFinished(env, base, a + b)
  {
    var es := a + b;
    forall k | 0 <= k < |es| - 1 && Is(es[k], PollCall) && Is(es[k + 1], PollCall)
      ensures !env.fails(base + k) && !Finished(env.playback(base + k))
    {
      assert es[k] == b[k - |a|] && es[k + 1] == b[k - |a| + 1];
      assert base + k == base + |a| + (k - |a|);
    }
  }

  /** Calls without polls behind a trace keep its polls' promise. */
  lemma PollsBefore(env: Env, base: nat, a: seq<Event>, b: seq<Event>)
    requires PollsUntilFinished(env, base, a) && Avoids(b, PollCall)
    ensures PollsUntilFinished(env, base, a + b)
  {
    var es := a + b;
    forall k | 0 <= k < |es| - 1 && Is(es[k], PollCall) && Is(es[k + 1], PollCall)
      ensures !env.fails(base + k) && !Finished(env.playback(base + k))
    {
      if k + 1 < |a| {
        assert es[k] == a[k] && es[k + 1] == a[k + 1];
      }
    }
  }

  lemma CapturePollsNot(env: Env, run: Run, dev: Device, volume: Option<int>)
    ensures Avoids(New(run, Capture(env, run, dev, volume)), PollCall)
  {
    CaptureTrace(env, run, dev, volume);
  }

  lemma InterruptPollsNot(env: Env, run: Run, dev: Device, soundUrl: string, volume: Option<int>)
    ensures Avoids(New(run, Interrupt(env, run, dev, soundUrl, volume)), PollCall)
  {
    InterruptTrace(env, run, dev, soundUrl, volume);
  }

  lemma FinishGrows(env: Env, run: Run, dev: Device, snap: Snapshot)
    ensures Grows(run.trace, Finish(env, run, dev, snap).run.trace)
  {
    FinishTrace(env, run, dev, snap);
  }

  lemma AfterCaptureGrows(env: Env, run: Run, dev: Device, soundUrl: string, volume: Option<int>, snap: Snapshot)
    ensures Grows(run.trace, AfterCapture(env, run, dev, soundUrl, volume, snap).run.trace)
  {
    AfterCaptureTrace(env, run, dev, soundUrl, volume, snap);
  }

  lemma FinishPolls(env: Env, run: Run, dev: Device, snap: Snapshot)
    ensures PollsUntilFinished(env, |run.trace|, New(run, Finish(env, run, dev, snap)))
  {
    var w := Wait(env, run, dev, env.budget(|run.trace|));
    WaitPolls(env, run, dev, env.budget(|run.trace|));
    if w.Ok? {
      var r := Restore(env, w.run, dev, snap);
      WaitTrace(env, run, dev, env.budget(|run.trace|));
      RestoreTrace(env, w.run, dev, snap);
      Then(run, w, r, dev);
      PollsBefore(env, |run.trace|, New(run, w), New(w.run, r));
    }
  }

  lemma AfterCapturePolls(env: Env, run: Run, dev: Device, soundUrl: string, volume: Option<int>, snap: Snapshot)
    ensures PollsUntilFinished(env, |run.trace|, New(run, AfterCapture(env, run, dev, soundUrl, volume, snap)))
  {
    var i := Interrupt(env, run, dev, soundUrl, volume);
    InterruptPollsNot(env, run, dev, soundUrl, volume);
    if i.Ok? {
      FinishPolls(env, i.run, dev, snap);
      FinishGrows(env, i.run, dev, snap);
      PollsThen(env, run, i, Finish(env, i.run, dev, snap));
    } else {
      NoPolls(env, |run.trace|, New(run, i));
    }
  }

  /** An attempt polls again only after a poll that succeeded and saw the
      clip still playing: it stops polling at the first poll that reports
      STOPPED or PAUSED_PLAYBACK. */
  lemma TryPlayPolls(env: Env, run: Run, dev: Device, soundUrl: string, volume: Option<int>)
    ensures PollsUntilFinished(env, |run.trace|, New(run, TryPlay(env, run, dev, soundUrl, volume)))
  {
    var c := Capture(env, run, dev, volume);
    CapturePollsNot(env, run, dev, volume);
    if c.Ok? {
      AfterCapturePolls(env, c.run, dev, soundUrl, volume, c.value);
      AfterCaptureGrows(env, c.run, dev, soundUrl, volume, c.value);
      PollsThen(env, run, c, AfterCapture(env, c.run, dev, soundUrl, volume, c.value));
    } else {
      NoPolls(env, |run.trace|, New(run, c));
    }
  }

  // ---- where seeking lands ----

  /** No call at a trace position from `from` up to `to` fails. */
  ghost predicate Clean(env: Env, from: nat, to: nat) {
    forall k: nat :: from <= k < to ==> !env.fails(k)
  }

  /** A successful run of `ops` adds one call per operation. */
  lemma ExecAllLength(env: Env, run: Run, dev: Device, ops: seq<Op>)
    requires forall k :: 0 <= k < |ops| ==> !IsPoll(ops[k])
    ensures var r := ExecAll(env, run, dev, ops);
            r.Ok? ==> |r.run.trace| == |run.trace| + |ops|
  {
    ExecAllTrace(env, run, dev, ops);
  }

  /** Resuming seeks to the captured track right after loading the
      captured URI, and to the captured position right after that: a seek
      that did not fail reached its target. */
  lemma ResumeSeeks(env: Env, run: Run, dev: Device, snap: Snapshot)
    ensures var r := Resume(env, run, dev, snap);
            r.Ok? && !env.fails(|run.trace| + 1) ==> r.run.spk.track == snap.track
    ensures var r := Resume(env, run, dev, snap);
            r.Ok? && !env.fails(|run.trace| + 1) && !env.fails(|run.trace| + 2) ==> r.run.spk.pos == snap.pos
  {
    ExecAllLength(env, run, dev, [SetUri(snap.uri, snap.meta.GetOr(""))]);
  }

  /** Restoring, resumption seeks right after the volume call (if any)
      and the URI call. */
  lemma RestoreSeeksAt(env: Env, run: Run, dev: Device, snap: Snapshot)
    ensures var r := Restore(env, run, dev, snap);
            var seeks := |run.trace| + |VolumeOps(snap)| + 1;
            r.Ok? && Resumes(snap) && !env.fails(seeks) ==> r.run.spk.track == snap.track
    ensures var r := Restore(env, run, dev, snap);
            var seeks := |run.trace| + |VolumeOps(snap)| + 1;
            r.Ok? && Resumes(snap) && !env.fails(seeks) && !env.fails(seeks + 1) ==> r.run.spk.pos == snap.pos
  {
    var v := ExecAll(env, run, dev, VolumeOps(snap));
    ExecAllLength(env, run, dev, VolumeOps(snap));
    if v.Ok? && Resumes(snap) {
      assert Restore(env, run, dev, snap) == Resume(env, v.run, dev, snap);
      ResumeSeeks(env, v.run, dev, snap);
    }
  }

  lemma RestoreSeeks(env: Env, run: Run, dev: Device, snap: Snapshot)
    ensures var r := Restore(env, run, dev, snap);
            r.Ok? && Resumes(snap) && Clean(env, |run.trace|, |r.run.trace|) ==>
              r.run.spk.track == snap.track && r.run.spk.pos == snap.pos
  {
    var r := Restore(env, run, dev, snap);
    RestoreSeeksAt(env, run, dev, snap);
    if r.Ok? && Resumes(snap) && Clean(env, |run.trace|, |r.run.trace|) {
      var v := ExecAll(env, run, dev, VolumeOps(snap));
      ExecAllLength(env, run, dev, VolumeOps(snap));
      var u := ExecAll(env, v.run, dev, [SetUri(snap.uri, snap.meta.GetOr(""))]);
      ExecAllLength(env, v.run, dev, [SetUri(snap.uri, snap.meta.GetOr(""))]);
      var sk := Seek(env, u.run, dev, snap.track, snap.pos);
      assert r == ExecAll(env, sk, dev, [Play]);
      var seeks := |run.trace| + |VolumeOps(snap)| + 1;
      assert !env.fails(seeks);
      assert !env.fails(seeks + 1);
    }
  }

  lemma FinishSeeks(env: Env, run: Run, dev: Device, snap: Snapshot)
    ensures var r := Finish(env, run, dev, snap);
            r.Ok? && Resumes(snap) && Clean(env, |run.trace|, |r.run.trace|) ==>
              r.run.spk.track == snap.track && r.run.spk.pos == snap.pos
  {
    var w := Wait(env, run, dev, env.budget(|run.trace|));
    if w.Ok? {
      RestoreSeeks(env, w.run, dev, snap);
    }
  }

  lemma AfterCaptureSeeks(env: Env, run: Run, dev: Device, soundUrl: string, volume: Option<int>, snap: Snapshot)
    ensures var r := AfterCapture(env, run, dev, soundUrl, volume, snap);
            r.Ok? && Resumes(snap) && Clean(env, |run.trace|, |r.run.trace|) ==>
              r.run.spk.track == snap.track && r.run.spk.pos == snap.pos
  {
    var i := Interrupt(env, run, dev, soundUrl, volume);
    if i.Ok? {
      FinishSeeks(env, i.run, dev, snap);
    }
  }

  /** A completed attempt in which no call failed, on a speaker that was
      playing a source, leaves it at the track and position it was
      playing before the alert. */
  lemma TryPlaySeeks(env: Env, run: Run, dev: Device, soundUrl: string, volume: Option<int>)
    ensures var r := TryPlay(env, run, dev, soundUrl, volume);
            r.Ok? && run.spk.transport == Playing && run.spk.uri != "" && Clean(env, |run.trace|, |r.run.trace|) ==>
              r.run.spk.track == run.spk.track && r.run.spk.pos == run.spk.pos
  {
    var c := Capture(env, run, dev, volume);
    if c.Ok? {
      AfterCaptureSeeks(env, c.run, dev, soundUrl, volume, c.value);
    }
  }

  // ---- attempts without failures ----

  /** From trace position `from` on, no call fails. */
  ghost predicate Reliable(env: Env, from: nat) {
    forall k :: k >= from ==> !env.fails(k)
  }

  lemma ReliableExecAll(env: Env, run: Run, dev: Device, ops: seq<Op>)
    requires forall k :: 0 <= k < |ops| ==> !IsPoll(ops[k])
    requires Reliable(env, |run.trace|)
    ensures ExecAll(env, run, dev, ops).Ok?
  {
    ExecAllClean(env, run, dev, ops);
  }

  lemma ReliableRestore(env: Env, run: Run, dev: Device, snap: Snapshot)
    requires Reliable(env, |run.trace|)
    ensures Restore(env, run, dev, snap).Ok?
  {
    var v := ExecAll(env, run, dev, VolumeOps(snap));
    ReliableExecAll(env, run, dev, VolumeOps(snap));
    if Resumes(snap) {
      var ops := [SetUri(snap.uri, snap.meta.GetOr(""))];
      var u := ExecAll(env, v.run, dev, ops);
      ReliableExecAll(env, v.run, dev, ops);
      var sk := Seek(env, u.run, dev, snap.track, snap.pos);
      ReliableExecAll(env, sk, dev, [Play]);
    }
  }

  lemma ReliableAfterCapture(env: Env, run: Run, dev: Device, soundUrl: string, volume: Option<int>, snap: Snapshot)
    requires Reliable(env, |run.trace|)
    ensures AfterCapture(env, run, dev, soundUrl, volume, snap).Ok?
  {
    var i := Interrupt(env, run, dev, soundUrl, volume);
    ReliableExecAll(env, run, dev, InterruptOps(soundUrl, volume));
    var w := Wait(env, i.run, dev, env.budget(|i.run.trace|));
    assert w.Ok?;
    ReliableRestore(env, w.run, dev, snap);
  }

  /** An attempt in which no call fails completes; the clip ending or the
      polls running out makes no difference. */
  lemma ReliableAttempt(env: Env, run: Run, dev: Device, soundUrl: string, volume: Option<int>)
    requires Reliable(env, |run.trace|)
    ensures TryPlay(env, run, dev, soundUrl, volume).Ok?
  {
    var c := Capture(env, run, dev, volume);
    ReliableExecAll(env, run, dev, CaptureOps(volume));
    ReliableAfterCapture(env, c.run, dev, soundUrl, volume, c.value);
  }
}

=== FILE: discovery.dfy ===
/** Filling the registry: broadcast discovery, seeded zone-group
    discovery, start-up of the manager, the check of configured room
    names, and the rediscovery of one speaker after a failure. */
module Discovery {
  import opened Text
  import opened Types
  import opened Registry

  /** A speaker answering a broadcast search. `name` is what loading its
      device description reported; `None` means that load failed. */
  datatype Player = Player(host: string, port: int, name: Option<string>)

  /** The reply to one broadcast search. */
  datatype Search = SearchFailed | Found(players: seq<Player>)

  /** One zone group reported by a speaker, with its members' endpoints. */
  datatype ZoneGroup = ZoneGroup(members: seq<Device>)

  /** What the seed speaker answered: its own name and its zone groups
      (an absent list is the empty list), or an error from either call. */
  datatype SeedReply = SeedFailed | SeedInfo(name: string, groups: seq<ZoneGroup>)

  /** The registry after a discovery and whether it ran without error. */
  datatype Discovered = Discovered(reg: Registry, ok: bool)

  predicate Loaded(p: Player) {
    p.name.Some?
  }

  function DeviceOf(p: Player): Device
    requires Loaded(p)
  {
    Device(p.name.value, p.host, p.port)
  }

  /** The devices of the players before the first one whose description
      could not be loaded. */
  function LoadedPrefix(ps: seq<Player>): (ds: seq<Device>)
    ensures |ds| <= |ps|
    ensures forall i :: 0 <= i < |ds| ==> Loaded(ps[i]) && ds[i] == DeviceOf(ps[i])
    ensures |ds| < |ps| ==> !Loaded(ps[|ds|])
  {
    if |ps| == 0 || !Loaded(ps[0]) then []
    else [DeviceOf(ps[0])] + LoadedPrefix(ps[1..])
  }

  /** The loop of `discoverAll`: each loaded player is written under its
      lower-cased name; the first failing load aborts the loop, leaving
      the entries already written in place. */
  function DiscoverPlayers(reg: Registry, ps: seq<Player>): (r: Discovered)
    ensures r.ok <==> forall i :: 0 <= i < |ps| ==> Loaded(ps[i])
    ensures r.reg == PutAll(reg, LoadedPrefix(ps))
    decreases |ps|
  {
    if |ps| == 0 then Discovered(reg, true)
    else if !Loaded(ps[0]) then Discovered(reg, false)
    else
      var r := DiscoverPlayers(Put(reg, DeviceOf(ps[0])), ps[1..]);
      assert forall i :: 1 <= i < |ps| ==> ps[i] == ps[1..][i - 1];
      r
  }

  /** `discoverAll`: a failed search writes nothing. */
  function DiscoverAll(reg: Registry, search: Search): (r: Discovered)
    ensures search.SearchFailed? ==> r == Discovered(reg, false)
    ensures search.Found? ==> r == DiscoverPlayers(reg, search.players)
    ensures WellKeyed(reg) ==> WellKeyed(r.reg)
  {
    match search
    case SearchFailed => Discovered(reg, false)
    case Found(ps) => DiscoverPlayers(reg, ps)
  }

  /** The members of all groups, group by group. */
  function Members(groups: seq<ZoneGroup>): (ds: seq<Device>)
    ensures forall d :: d in ds <==> exists g :: g in groups && d in g.members
  {
    if |groups| == 0 then []
    else
      var rest := Members(groups[1..]);
      assert forall g :: g in groups[1..] ==> g in groups;
      assert forall g :: g in groups ==> g == groups[0] || g in groups[1..];
      groups[0].members + rest
  }

  /** The members of consecutive groups follow each other. */
  lemma {:induction false} MembersAppend(a: seq<ZoneGroup>, b: seq<ZoneGroup>)
    ensures Members(a + b) == Members(a) + Members(b)
    decreases |a|
  {
    if |a| == 0 {
      assert a + b == b;
    } else {
      assert (a + b)[1..] == a[1..] + b;
      MembersAppend(a[1..], b);
    }
  }

  /** The members of one group, in the group's order. */
  lemma MembersOne(g: ZoneGroup)
    ensures Members([g]) == g.members
  {
    assert [g][1..] == [];
  }

  /** Registering the members group by group, member by member: a member
      of a later group overwrites an earlier one with the same
      lower-cased name, so the last group written wins. */
  lemma LaterGroupsWin(reg: Registry, a: seq<ZoneGroup>, g: ZoneGroup)
    ensures PutAll(reg, Members(a + [g])) == PutAll(PutAll(reg, Members(a)), g.members)
  {
    MembersAppend(a, [g]);
    MembersOne(g);
    PutAllAppend(reg, Members(a), g.members);
  }

  /** `discoverFromDevice`: ask one known speaker for its zone groups.
      When it reports none, fall back to the seed alone on port 1400. */
  function DiscoverFromSeed(reg: Registry, host: string, reply: SeedReply): (r: Discovered)
    ensures r.ok <==> reply.SeedInfo?
    ensures reply.SeedFailed? ==> r.reg == reg
    ensures reply.SeedInfo? && |reply.groups| == 0 ==>
              r.reg == Put(reg, Device(reply.name, host, DefaultPort))
    ensures reply.SeedInfo? && |reply.groups| > 0 ==> r.reg == PutAll(reg, Members(reply.groups))
    ensures WellKeyed(reg) ==> WellKeyed(r.reg)
  {
    match reply
    case SeedFailed => Discovered(reg, false)
    case SeedInfo(name, groups) =>
      if |groups| == 0 then Discovered(Put(reg, Device(name, host, DefaultPort)), true)
      else Discovered(PutAll(reg, Members(groups)), true)
  }

  /** Seeded discovery that hears of no zone group yields exactly one
      entry: the seed, on the default port. */
  lemma SeedFallbackSingleEntry(host: string, name: string)
    ensures var r := DiscoverFromSeed(map[], host, SeedInfo(name, []));
            r.ok && r.reg == map[Lower(name) := Device(name, host, 1400)] && |r.reg| == 1
  {
  }

  /** The distinct room names of a list of rooms. */
  function RoomNames(rooms: seq<Room>): (names: set<string>)
    ensures forall n :: n in names <==> exists r :: r in rooms && r.name == n
  {
    set r | r in rooms :: r.name
  }

  /** The distinct room names of all alerts, alert by alert. */
  function ConfiguredNames(alerts: seq<Alert>): (names: set<string>)
    ensures forall n :: n in names <==> exists a, r :: a in alerts && r in a.rooms && r.name == n
  {
    if |alerts| == 0 then {}
    else
      var init := alerts[..|alerts| - 1];
      var last := alerts[|alerts| - 1];
      assert forall a :: a in alerts <==> a in init || a == last;
      ConfiguredNames(init) + RoomNames(last.rooms)
  }

  /** The room names a configuration mentions that would draw a warning:
      not the "All" sentinel and not a registry key. */
  function MissingRooms(alerts: seq<Alert>, reg: Registry): set<string> {
    set n | n in ConfiguredNames(alerts) && Warns(n, reg)
  }

  /** The inner loop of the room collection: add one alert's rooms. */
  method AddRoomNames(acc: set<string>, rooms: seq<Room>) returns (names: set<string>)
    ensures names == acc + RoomNames(rooms)
  {
    names := acc;
    var j := 0;
    while j < |rooms|
      invariant 0 <= j <= |rooms|
      invariant names == acc + RoomNames(rooms[..j])
    {
      names := names + {rooms[j].name};
      assert rooms[..j + 1] == rooms[..j] + [rooms[j]];
      j := j + 1;
    }
    assert rooms[..j] == rooms;
  }

  /** The first half of `validateConfiguredRooms`: the set of every room
      name of every alert. */
  method CollectRoomNames(alerts: seq<Alert>) returns (configured: set<string>)
    ensures configured == ConfiguredNames(alerts)
  {
    configured := {};
    var i := 0;
    while i < |alerts|
      invariant 0 <= i <= |alerts|
      invariant configured == ConfiguredNames(alerts[..i])
    {
      configured := AddRoomNames(configured, alerts[i].rooms);
      assert alerts[..i + 1][..i] == alerts[..i];
      i := i + 1;
    }
    assert alerts[..i] == alerts;
  }

  /** `validateConfiguredRooms`: collect the configured room names, then
      warn for each one that is neither "All" nor known. */
  method ValidateConfiguredRooms(alerts: seq<Alert>, reg: Registry) returns (warned: set<string>)
    ensures warned == MissingRooms(alerts, reg)
    ensures forall n :: n in warned <==>
              n in ConfiguredNames(alerts) && !IsAll(n) && Get(reg, n).None? && !Inherited(Lower(n))
  {
    var configured := CollectRoomNames(alerts);
    warned := {};
    var todo := configured;
    while todo != {}
      invariant todo <= configured
      invariant forall n :: n in warned <==> n in configured && n !in todo && Warns(n, reg)
      decreases |todo|
    {
      var n :| n in todo;
      if Warns(n, reg) {
        warned := warned + {n};
      }
      todo := todo - {n};
    }
  }

  /** A configured room name that `validateConfiguredRooms` warns about:
      not "All", and its lower-case form is neither a stored key nor one the
      registry object inherits. */
  predicate Warns(n: string, reg: Registry) {
    !IsAll(n) && Lower(n) !in reg && !Inherited(Lower(n))
  }

  /** A room called "Constructor" is never reported missing, even by an
      empty registry, while "Kitchen" is. */
  lemma InheritedNamesNotWarned()
    ensures !Warns("Constructor", map[])
    ensures Warns("Kitchen", map[])
  {
    assert Lower("Constructor") == "constructor";
    assert Lower("Kitchen") == "kitchen";
  }

  /** The manager after `init`: the registry it built, whether it will
      accept alerts, and the room names it warned about. */
  datatype Manager = Manager(reg: Registry, initialized: bool, warned: set<string>)

  /** The configured address is truthy: present and not empty. */
  predicate Seeded(cfg: Config) {
    cfg.ipAddress.Some? && cfg.ipAddress.value != ""
  }

  /** `init`: seeded discovery when an address is configured, broadcast
      discovery otherwise. An error or an empty registry leaves the
      manager uninitialized; the room check only runs on success. */
  function Init(cfg: Config, broadcast: Search, seed: SeedReply): (m: Manager)
    ensures Seeded(cfg) ==> m.reg == DiscoverFromSeed(map[], cfg.ipAddress.value, seed).reg
    ensures !Seeded(cfg) ==> m.reg == DiscoverAll(map[], broadcast).reg
    ensures WellKeyed(m.reg)
    ensures m.initialized ==> |m.reg| > 0
    ensures |m.reg| == 0 ==> !m.initialized
    ensures !m.initialized ==> m.warned == {}
    ensures m.initialized ==> m.warned == MissingRooms(cfg.alerts, m.reg)
  {
    var d := if Seeded(cfg)
             then DiscoverFromSeed(map[], cfg.ipAddress.value, seed)
             else DiscoverAll(map[], broadcast);
    if !d.ok || |d.reg| == 0 then Manager(d.reg, false, {})
    else Manager(d.reg, true, MissingRooms(cfg.alerts, d.reg))
  }

  /** Writing a list of devices into an empty registry leaves it empty
      only when the list is empty. */
  lemma PutAllEmpty(ds: seq<Device>)
    ensures |PutAll(map[], ds)| == 0 <==> |ds| == 0
  {
    var r := PutAll(map[], ds);
    if |ds| > 0 {
      assert Key(ds[0]) in Keys(ds);
      assert Key(ds[0]) in r.Keys;
    } else {
      assert Keys(ds) == {};
      assert r.Keys == {};
    }
  }

  /** Initialization succeeds exactly when the chosen discovery ran
      without error and found at least one speaker. */
  lemma InitSucceedsIff(cfg: Config, broadcast: Search, seed: SeedReply)
    ensures Init(cfg, broadcast, seed).initialized <==>
              if Seeded(cfg) then seed.SeedInfo? && (|seed.groups| == 0 || |Members(seed.groups)| > 0)
              else broadcast.Found? && |broadcast.players| > 0
                   && forall i :: 0 <= i < |broadcast.players| ==> Loaded(broadcast.players[i])
  {
    var d := if Seeded(cfg) then DiscoverFromSeed(map[], cfg.ipAddress.value, seed) else DiscoverAll(map[], broadcast);
    assert Init(cfg, broadcast, seed).initialized <==> d.ok && |d.reg| > 0;
    if seed.SeedInfo? {
      PutAllEmpty(Members(seed.groups));
    }
    if broadcast.Found? {
      PutAllEmpty(LoadedPrefix(broadcast.players));
    }
  }

  /** The match loop of `rediscoverDevice`: the first loaded player whose
      name equals `name` up to case; a failing load ends the search. */
  function FirstMatch(name: string, ps: seq<Player>): (r: Option<Device>)
    ensures r.Some? <==> exists i :: 0 <= i < |ps| && Matches(ps[i], name) && Clear(ps[..i], name)
    ensures r.Some? ==> exists i :: 0 <= i < |ps| && Matches(ps[i], name) && Clear(ps[..i], name)
                                  && r.value == DeviceOf(ps[i])
  {
    if |ps| == 0 || !Loaded(ps[0]) then
      assert forall i :: 0 < i < |ps| ==> !Clear(ps[..i], name) by {
        forall i | 0 < i < |ps| ensures !Clear(ps[..i], name) { assert ps[..i][0] == ps[0]; }
      }
      None
    else if Lower(ps[0].name.value) == Lower(name) then
      assert Clear(ps[..0], name);
      Some(DeviceOf(ps[0]))
    else
      var r := FirstMatch(name, ps[1..]);
      assert forall i :: 0 < i <= |ps| ==> (Clear(ps[..i], name) <==> Clear(ps[1..][..i - 1], name)) by {
        forall i | 0 < i <= |ps| ensures Clear(ps[..i], name) <==> Clear(ps[1..][..i - 1], name) {
          ClearCons(ps, name, i);
        }
      }
      assert !Matches(ps[0], name);
      assert forall i :: 0 < i < |ps| ==> ps[i] == ps[1..][i - 1];
      r
  }

  /** Clearing a prefix past a first player that loaded and did not
      match is clearing the rest of it. */
  lemma ClearCons(ps: seq<Player>, name: string, i: int)
    requires 0 < i <= |ps| && Loaded(ps[0]) && !Matches(ps[0], name)
    ensures Clear(ps[..i], name) <==> Clear(ps[1..][..i - 1], name)
  {
    assert ps[..i] == [ps[0]] + ps[1..][..i - 1];
  }

  predicate Matches(p: Player, name: string) {
    Loaded(p) && Lower(p.name.value) == Lower(name)
  }

  /** Every player in `ps` loaded and none of them matched. */
  predicate Clear(ps: seq<Player>, name: string) {
    forall j :: 0 <= j < |ps| ==> Loaded(ps[j]) && !Matches(ps[j], name)
  }

  /** `rediscoverDevice`: search again and, on a match, overwrite the
      entry of that one name. Any error, or no match, gives nothing and
      leaves the registry as it was. */
  function Rediscover(reg: Registry, name: string, search: Search): (r: (Option<Device>, Registry))
    ensures r.0.None? ==> r.1 == reg
    ensures r.0.Some? ==> Key(r.0.value) == Lower(name) && r.1 == reg[Lower(name) := r.0.value]
    ensures r.0.Some? ==> r.1 == Put(reg, r.0.value)
    ensures r.0.Some? <==> search.Found? && FirstMatch(name, search.players).Some?
    ensures r.0 == (if search.Found? then FirstMatch(name, search.players) else None)
  {
    match search
    case SearchFailed => (None, reg)
    case Found(ps) =>
      var f := FirstMatch(name, ps);
      if f.Some? then (f, reg[Lower(name) := f.value]) else (None, reg)
  }
}

=== FILE: legacy.dfy ===
/** The earlier accessory plugin (`index.js`): one switch per alert that
    plays the alert on every Sonos group containing one of the alert's
    rooms, and puts back the previous track once playback stops. */
module Legacy {
  import opened Types

  /** A zone group as the legacy client reports it: its name and the
      zone names of its members. */
  datatype Group = Group(name: string, zoneNames: seq<string>)

  /** An alert of the legacy configuration: rooms are plain names. */
  datatype LegacyAlert = LegacyAlert(name: string, soundUrl: string, rooms: seq<string>)

  /** Some requested room is, verbatim, the zone name of a member. */
  predicate Wanted(g: Group, rooms: seq<string>) {
    exists i, j :: 0 <= i < |rooms| && 0 <= j < |g.zoneNames| && rooms[i] == g.zoneNames[j]
  }

  /** The filter of `getGroupsForRooms`. */
  function GroupsForRooms(groups: seq<Group>, rooms: seq<string>): (r: seq<Group>)
    ensures |r| <= |groups|
    ensures forall g :: g in r ==> g in groups && Wanted(g, rooms)
    ensures forall g :: g in groups && Wanted(g, rooms) ==> g in r
    decreases |groups|
  {
    if |groups| == 0 then []
    else
      var rest := GroupsForRooms(groups[1..], rooms);
      assert forall g :: g in groups ==> g == groups[0] || g in groups[1..];
      if Wanted(groups[0], rooms) then [groups[0]] + rest else rest
  }

  /** `a` is `b` with some elements left out, the others in order. */
  predicate SubsequenceOf(a: seq<Group>, b: seq<Group>)
    decreases |b|
  {
    if |a| == 0 then true
    else if |b| == 0 then false
    else (a[0] == b[0] && SubsequenceOf(a[1..], b[1..])) || SubsequenceOf(a, b[1..])
  }

  /** The selected groups keep the order of the groups. */
  lemma {:induction false} GroupsForRoomsInOrder(groups: seq<Group>, rooms: seq<string>)
    ensures SubsequenceOf(GroupsForRooms(groups, rooms), groups)
    decreases |groups|
  {
    if |groups| > 0 {
      GroupsForRoomsInOrder(groups[1..], rooms);
      var r := GroupsForRooms(groups, rooms);
      if Wanted(groups[0], rooms) {
        assert r[0] == groups[0] && r[1..] == GroupsForRooms(groups[1..], rooms);
      }
    }
  }

  /** Filtering distributes over concatenation. */
  lemma {:induction false} GroupsForRoomsAppend(a: seq<Group>, b: seq<Group>, rooms: seq<string>)
    ensures GroupsForRooms(a + b, rooms) == GroupsForRooms(a, rooms) + GroupsForRooms(b, rooms)
    decreases |a|
  {
    if |a| == 0 {
      assert a + b == b;
    } else {
      assert (a + b)[1..] == a[1..] + b;
      GroupsForRoomsAppend(a[1..], b, rooms);
    }
  }

  /** Zone names are compared as they are: a room written in another
      letter case selects nothing. */
  lemma RoomsAreCaseSensitive()
    ensures GroupsForRooms([Group("Kitchen", ["Kitchen"])], ["kitchen"]) == []
  {
    var g := Group("Kitchen", ["Kitchen"]);
    assert "kitchen"[0] != "Kitchen"[0];
    assert !Wanted(g, ["kitchen"]);
  }

  /** What the handlers do, in order. */
  datatype Effect =
    | AlertRooms(rooms: seq<string>, soundUrl: string)
    | ResetSwitchLater
    | Callback
    | GetCurrentState | CurrentTrack | PlaySound(uri: string) | SetAVTransportURI(uri: string)

  /** `setSwitchState`: a truthy value starts the alert of the switch and
      schedules the switch to be turned off again; the callback is answered
      without error either way, last. */
  function SetSwitchState(value: CharValue, alert: LegacyAlert): (effects: seq<Effect>)
    ensures |effects| > 0 && effects[|effects| - 1] == Callback
    ensures Truthy(value) ==> effects == [AlertRooms(alert.rooms, alert.soundUrl), ResetSwitchLater, Callback]
    ensures !Truthy(value) ==> effects == [Callback]
  {
    (if Truthy(value) then [AlertRooms(alert.rooms, alert.soundUrl), ResetSwitchLater] else []) + [Callback]
  }

  /** What happens once playback of the alert stopped: the previous track
      URI is set again only when there was one and the group was playing;
      nothing starts it playing. */
  function AfterPlayback(state: string, trackUri: string): (effects: seq<Effect>)
    ensures |effects| <= 1
    ensures |effects| == 1 <==> trackUri != "" && state == "playing"
    ensures forall e :: e in effects ==> e == SetAVTransportURI(trackUri)
  {
    if trackUri != "" && state == "playing" then [SetAVTransportURI(trackUri)] else []
  }

  /** How far the awaits of `alertGroup` got: the first one that
      rejected, or none. A rejection ends the handler; nothing catches it,
      since the caller does not await the handler. */
  datatype Reached = StateRejected | TrackRejected | PlayRejected | AllResolved

  /** The calls `alertGroup` makes before its listener is registered. */
  function Start(sound: string): seq<Effect> {
    [GetCurrentState, CurrentTrack, PlaySound(sound)]
  }

  /** `alertGroup`: read the state and the current track, play the alert
      sound, and, once playback stopped, `AfterPlayback`. A rejected await
      ends it after the rejected call; the listener runs only when every
      await resolved and the 'PlaybackStopped' event fired (`stopped`). */
  function AlertGroup(reached: Reached, stopped: bool, state: string, trackUri: string, sound: string)
    : (effects: seq<Effect>)
    ensures 0 < |effects| && effects[0] == GetCurrentState
    ensures forall k :: 0 <= k < |effects| && k < 3 ==> effects[k] == Start(sound)[k]
    ensures reached == StateRejected ==> |effects| == 1
    ensures reached == TrackRejected ==> |effects| == 2
    ensures reached == PlayRejected ==> |effects| == 3
    ensures reached == AllResolved ==> |effects| >= 3
    ensures reached == AllResolved && stopped ==> effects[3..] == AfterPlayback(state, trackUri)
    ensures |effects| > 3 ==> reached == AllResolved && stopped
  {
    match reached
    case StateRejected => Start(sound)[..1]
    case TrackRejected => Start(sound)[..2]
    case PlayRejected => Start(sound)
    case AllResolved => Start(sound) + (if stopped then AfterPlayback(state, trackUri) else [])
  }

  /** After the alert sound, the only call the handler makes is setting the
      URI of the track that was playing before, and that only once: when
      every await resolved, playback stopped, and a track was playing. */
  lemma LegacyResumeOnlySetsUri(reached: Reached, stopped: bool, state: string, trackUri: string, sound: string)
    ensures var effects := AlertGroup(reached, stopped, state, trackUri, sound);
            |effects| <= 4 &&
            (forall k :: 3 <= k < |effects| ==> effects[k] == SetAVTransportURI(trackUri)) &&
            (|effects| == 4 <==> reached == AllResolved && stopped && trackUri != "" && state == "playing")
  {
    var effects := AlertGroup(reached, stopped, state, trackUri, sound);
    if |effects| > 3 {
      assert forall k :: 3 <= k < |effects| ==> effects[k] == effects[3..][k - 3];
    }
  }
}

=== FILE: orchestrator.dfy ===
/** Alert orchestration of `SonosManager`: resolving the rooms of an
    alert into device tasks (`playAlert`), and the one-retry policy of a
    device task (`playAlertOnDevice`). */
module Orchestrator {
  import opened Types
  import opened Text
  import opened Registry
  import opened Discovery
  import opened Attempt

  // ---- playAlert ----

  /** A device task: play the alert on this endpoint, at this room volume. */
  datatype Task = Task(device: Device, volume: Option<int>)

  /** The device task of one room, when its name resolves in the registry. */
  function TaskOf(reg: Registry, room: Room): (t: Option<Task>)
    ensures t.Some? <==> Lower(room.name) in reg
    ensures t.Some? ==> t.value == Task(reg[Lower(room.name)], room.volume)
  {
    match Get(reg, room.name)
    case None => None
    case Some(d) => Some(Task(d, room.volume))
  }

  /** The rooms in order, unresolved ones skipped. */
  function Resolve(reg: Registry, rooms: seq<Room>): (tasks: seq<Task>)
    ensures |tasks| <= |rooms|
    ensures |reg| == 0 ==> tasks == []
    ensures forall t :: t in tasks ==> exists room :: room in rooms && TaskOf(reg, room) == Some(t)
    decreases |rooms|
  {
    if |rooms| == 0 then []
    else
      var rest := Resolve(reg, rooms[1..]);
      assert forall room :: room in rooms[1..] ==> room in rooms;
      match TaskOf(reg, rooms[0])
      case None => rest
      case Some(t) => [t] + rest
  }

  /** `playAlert`: nothing before initialization; afterwards one task per
      room that resolves, in the order of the rooms. */
  function PlayAlert(m: Manager, rooms: seq<Room>): (tasks: seq<Task>)
    ensures !m.initialized ==> tasks == []
    ensures |m.reg| == 0 ==> tasks == []
    ensures m.initialized ==> tasks == Resolve(m.reg, rooms)
  {
    if !m.initialized then []
    else Resolve(m.reg, rooms)
  }

  /** Resolution works room by room: the device tasks of a concatenation are the
      tasks of the parts, in order. */
  lemma {:induction false} ResolveAppend(reg: Registry, a: seq<Room>, b: seq<Room>)
    ensures Resolve(reg, a + b) == Resolve(reg, a) + Resolve(reg, b)
    decreases |a|
  {
    if |a| == 0 {
      assert a + b == b;
    } else {
      assert (a + b)[1..] == a[1..] + b;
      ResolveAppend(reg, a[1..], b);
    }
  }

  /** A single room gives exactly one task when its name resolves, none
      when it does not. */
  lemma ResolveOne(reg: Registry, room: Room)
    ensures Lower(room.name) in reg ==> Resolve(reg, [room]) == [Task(reg[Lower(room.name)], room.volume)]
    ensures Lower(room.name) !in reg ==> Resolve(reg, [room]) == []
  {
    assert [room][1..] == [];
  }

  /** Every room resolves: one task per room, position for position. */
  lemma {:induction false} ResolveAll(reg: Registry, rooms: seq<Room>)
    requires forall i :: 0 <= i < |rooms| ==> Lower(rooms[i].name) in reg
    ensures var tasks := Resolve(reg, rooms);
            |tasks| == |rooms|
            && forall i :: 0 <= i < |rooms| ==> tasks[i] == Task(reg[Lower(rooms[i].name)], rooms[i].volume)
    decreases |rooms|
  {
    if |rooms| > 0 {
      assert forall i :: 0 <= i < |rooms[1..]| ==> rooms[1..][i] == rooms[i + 1];
      ResolveAll(reg, rooms[1..]);
    }
  }

  /** No initialized manager, no device calls: a failed or empty discovery
      gives no task whatever the rooms. */
  lemma NoSpeakersNoTasks(cfg: Config, broadcast: Search, seed: SeedReply, rooms: seq<Room>)
    ensures var m := Init(cfg, broadcast, seed);
            !m.initialized ==> PlayAlert(m, rooms) == []
  {
  }

  // ---- playAlertOnDevice ----

  /** How a device task ends. No outcome is an error the device task raises. */
  datatype Outcome = Played | PlayedAfterRediscovery | NotRediscovered | FailedAfterRediscovery

  predicate Retried(o: Outcome) {
    o == PlayedAfterRediscovery || o == FailedAfterRediscovery
  }

  /** The end of a device task: its outcome, the registry, the speaker
      and trace. */
  datatype Delivery = Delivery(outcome: Outcome, reg: Registry, run: Run)

  /** `playAlertOnDevice`: one attempt; when it fails, `Recover`. */
  function PlayOnDevice(env: Env, reg: Registry, run: Run, dev: Device, soundUrl: string, volume: Option<int>)
    : (d: Delivery)
    ensures d.outcome == Played <==> TryPlay(env, run, dev, soundUrl, volume).Ok?
    ensures !Retried(d.outcome) ==> d.reg == reg
    ensures Retried(d.outcome) ==> Lower(dev.name) in d.reg && Key(d.reg[Lower(dev.name)]) == Lower(dev.name)
    ensures d.reg.Keys <= reg.Keys + {Lower(dev.name)}
    ensures forall k :: k in reg && k != Lower(dev.name) ==> k in d.reg && d.reg[k] == reg[k]
    ensures WellKeyed(reg) ==> WellKeyed(d.reg)
    ensures d.outcome == Played ==> d.run.spk.volume == run.spk.volume
  {
    var first := TryPlay(env, run, dev, soundUrl, volume);
    if first.Ok? then Delivery(Played, reg, first.run)
    else Recover(env, reg, first.run, dev, soundUrl, volume)
  }

  /** After a failed attempt: rediscover the speaker by name, recording
      the rediscovery in the trace, and when it is found make one more
      attempt on its new endpoint. A completed retry leaves the volume
      where the retry found it. */
  function Recover(env: Env, reg: Registry, run: Run, dev: Device, soundUrl: string, volume: Option<int>)
    : (d: Delivery)
    ensures d.outcome != Played
    ensures !Retried(d.outcome) ==> d.reg == reg
    ensures Retried(d.outcome) ==> Lower(dev.name) in d.reg && Key(d.reg[Lower(dev.name)]) == Lower(dev.name)
    ensures d.reg.Keys <= reg.Keys + {Lower(dev.name)}
    ensures forall k :: k in reg && k != Lower(dev.name) ==> k in d.reg && d.reg[k] == reg[k]
    ensures WellKeyed(reg) ==> WellKeyed(d.reg)
    ensures d.outcome == PlayedAfterRediscovery ==> d.run.spk.volume == run.spk.volume
    ensures var search := env.search(|run.trace|);
            Retried(d.outcome) ==> search.Found? && FirstMatch(dev.name, search.players) == Some(d.reg[Lower(dev.name)])
  {
    var (found, reg') := Rediscover(reg, dev.name, env.search(|run.trace|));
    var run' := Run(run.spk, run.trace + [Rediscovery(dev.name, found.Some?)]);
    if found.None? then Delivery(NotRediscovered, reg', run')
    else
      var second := TryPlay(env, run', found.value, soundUrl, volume);
      Delivery(if second.Ok? then PlayedAfterRediscovery else FailedAfterRediscovery, reg', second.run)
  }

  /** The facts about one attempt's calls that a device task needs. */
  lemma AttemptCalls(env: Env, run: Run, dev: Device, soundUrl: string, volume: Option<int>)
    ensures var r := TryPlay(env, run, dev, soundUrl, volume);
            var es := New(run, r);
            && Grows(run.trace, r.run.trace) && To(es, dev) && Count(es, CaptureQuery) == 1
            && (volume.None? ==> Avoids(es, VolumeCall))
  {
    TryPlayTrace(env, run, dev, soundUrl, volume);
  }

  /** The events of a recovery: the rediscovery, then, when the speaker
      was found, one attempt whose calls all go to the new endpoint. */
  lemma RecoverTrace(env: Env, reg: Registry, run: Run, dev: Device, soundUrl: string, volume: Option<int>)
    ensures var d := Recover(env, reg, run, dev, soundUrl, volume);
            Grows(run.trace, d.run.trace) &&
            var es := d.run.trace[|run.trace|..];
            && |es| > 0
            && es[0] == Rediscovery(dev.name, d.outcome != NotRediscovered)
            && (Retried(d.outcome) ==> To(es[1..], d.reg[Lower(dev.name)]))
            && Count(es, CaptureQuery) == (if Retried(d.outcome) then 1 else 0)
            && (volume.None? ==> Avoids(es, VolumeCall))
  {
    var (found, reg') := Rediscover(reg, dev.name, env.search(|run.trace|));
    var ev := Rediscovery(dev.name, found.Some?);
    var run' := Run(run.spk, run.trace + [ev]);
    assert Count([ev], CaptureQuery) == 0 && Avoids([ev], VolumeCall);
    if found.Some? {
      var second := TryPlay(env, run', found.value, soundUrl, volume);
      AttemptCalls(env, run', found.value, soundUrl, volume);
      var ss := New(run', second);
      Chain(run.trace, run'.trace, second.run.trace);
      var es := second.run.trace[|run.trace|..];
      assert es == [ev] + ss;
      CountAppend([ev], ss, CaptureQuery);
      AvoidsAppend([ev], ss, VolumeCall);
    } else {
      assert run'.trace[|run.trace|..] == [ev];
    }
  }

  /** The calls of a device task: the first attempt on the registered
      endpoint; after a failure one rediscovery; after a successful
      rediscovery the second attempt, all of its calls to the new
      endpoint. At most two attempts (each opens with one capturing
      transport query), two exactly when the first failed and the
      speaker was found again; volume calls only for a room volume. */
  lemma PlayOnDeviceTrace(env: Env, reg: Registry, run: Run, dev: Device, soundUrl: string, volume: Option<int>)
    ensures var d := PlayOnDevice(env, reg, run, dev, soundUrl, volume);
            var first := TryPlay(env, run, dev, soundUrl, volume);
            Grows(run.trace, first.run.trace) && Grows(run.trace, d.run.trace) &&
            var m := |first.run.trace| - |run.trace|;
            var es := d.run.trace[|run.trace|..];
            && m <= |es|
            && To(es[..m], dev)
            && (first.Ok? <==> m == |es|)
            && (first.Fault? ==> es[m] == Rediscovery(dev.name, d.outcome != NotRediscovered))
            && (Retried(d.outcome) ==> To(es[m + 1..], d.reg[Lower(dev.name)]))
            && Count(es, CaptureQuery) == (if Retried(d.outcome) then 2 else 1)
            && (volume.None? ==> Avoids(es, VolumeCall))
    ensures var d := PlayOnDevice(env, reg, run, dev, soundUrl, volume);
            var search := env.search(|TryPlay(env, run, dev, soundUrl, volume).run.trace|);
            Retried(d.outcome) ==> search.Found? && FirstMatch(dev.name, search.players) == Some(d.reg[Lower(dev.name)])
  {
    var first := TryPlay(env, run, dev, soundUrl, volume);
    AttemptCalls(env, run, dev, soundUrl, volume);
    if first.Fault? {
      var d := Recover(env, reg, first.run, dev, soundUrl, volume);
      assert PlayOnDevice(env, reg, run, dev, soundUrl, volume) == d;
      RecoverTrace(env, reg, first.run, dev, soundUrl, volume);
      Chain(run.trace, first.run.trace, d.run.trace);
      var fs, rs := New(run, first), d.run.trace[|first.run.trace|..];
      var es := d.run.trace[|run.trace|..];
      assert es == fs + rs;
      assert es[..|fs|] == fs;
      assert es[|fs| + 1..] == rs[1..];
      CountAppend(fs, rs, CaptureQuery);
      AvoidsAppend(fs, rs, VolumeCall);
    }
  }

  /** A device task in which no call fails plays on the first attempt,
      leaves the registry alone and restores the volume. */
  lemma ReliableDelivery(env: Env, reg: Registry, run: Run, dev: Device, soundUrl: string, volume: Option<int>)
    requires Reliable(env, |run.trace|)
    ensures var d := PlayOnDevice(env, reg, run, dev, soundUrl, volume);
            d.outcome == Played && d.reg == reg && d.run.spk.volume == run.spk.volume
  {
    ReliableAttempt(env, run, dev, soundUrl, volume);
  }

  // ---- the volume after a retry ----

  /** A speaker at volume 10 with nothing loaded, a room volume of 50,
      and a first attempt whose `SetAVTransportURI` call (the sixth call)
      fails after the volume was already raised; rediscovery finds the
      speaker on a new address, and the clip ends at the first poll. */
  function RetryEnv(): Env {
    Env(i => i == 5, i => Stopped, i => Found([Player("10.0.0.9", DefaultPort, Some("Kitchen"))]), i => MaxPolls)
  }

  /** The first attempt in that world fails at the alert URI with the
      volume already raised. */
  lemma RetryFirstAttempt()
    ensures var kitchen := Device("Kitchen", "10.0.0.8", DefaultPort);
            var r := TryPlay(RetryEnv(), Run(Speaker(Stopped, "", None, 0, "", 10), []), kitchen, "http://alert", Some(50));
            r.Fault? && r.run.spk.volume == 50 && |r.run.trace| == 6
  {
    var env := RetryEnv();
    var kitchen := Device("Kitchen", "10.0.0.8", DefaultPort);
    var run := Run(Speaker(Stopped, "", None, 0, "", 10), []);
    var c := Capture(env, run, kitchen, Some(50));
    ExecAllClean(env, run, kitchen, CaptureOps(Some(50)));
    assert c.Ok? && |c.run.trace| == 4;
    RetryInterruptFails(c.run);
  }

  /** The sixth call of the first attempt, loading the alert URI, fails
      right after the volume was set. */
  lemma RetryInterruptFails(run: Run)
    requires |run.trace| == 4
    ensures var i := Interrupt(RetryEnv(), run, Device("Kitchen", "10.0.0.8", DefaultPort), "http://alert", Some(50));
            i.Fault? && i.run.spk.volume == 50 && |i.run.trace| == 6
  {
    var env := RetryEnv();
    var kitchen := Device("Kitchen", "10.0.0.8", DefaultPort);
    var rest := [SetUri("http://alert", ""), Play];
    var ops := [SetVolume(50)] + rest;
    assert InterruptOps("http://alert", Some(50)) == ops;
    var v := Exec(env, run, kitchen, SetVolume(50));
    assert v.Ok? && v.run.spk.volume == 50 && |v.run.trace| == 5;
    var u := Exec(env, v.run, kitchen, SetUri("http://alert", ""));
    assert u.Fault? && u.run.spk.volume == 50;
    assert ExecAll(env, v.run, kitchen, rest) == u;
    assert ops[1..] == rest;
    assert ExecAll(env, run, kitchen, ops) == u;
  }

  /** A recovery that finds the speaker again, with no call of the
      retry failing, plays the alert and leaves the volume where the
      failed attempt left it. */
  lemma RecoverPlays(env: Env, reg: Registry, run: Run, dev: Device, soundUrl: string, volume: Option<int>)
    requires Rediscover(reg, dev.name, env.search(|run.trace|)).0.Some?
    requires Reliable(env, |run.trace| + 1)
    ensures var d := Recover(env, reg, run, dev, soundUrl, volume);
            d.outcome == PlayedAfterRediscovery && d.run.spk.volume == run.spk.volume
  {
    var found := Rediscover(reg, dev.name, env.search(|run.trace|)).0;
    var run' := Run(run.spk, run.trace + [Rediscovery(dev.name, true)]);
    ReliableAttempt(env, run', found.value, soundUrl, volume);
  }

  /** After that retry the speaker stays at the room volume: the retry
      captured the raised volume as the one to restore, so the volume
      from before the alert is not restored although the alert played. */
  lemma RetryKeepsAlertVolume()
    ensures var kitchen := Device("Kitchen", "10.0.0.8", DefaultPort);
            var run := Run(Speaker(Stopped, "", None, 0, "", 10), []);
            var d := PlayOnDevice(RetryEnv(), map[Key(kitchen) := kitchen], run, kitchen, "http://alert", Some(50));
            d.outcome == PlayedAfterRediscovery && d.run.spk.volume == 50 != run.spk.volume
  {
    var env := RetryEnv();
    var kitchen := Device("Kitchen", "10.0.0.8", DefaultPort);
    var run := Run(Speaker(Stopped, "", None, 0, "", 10), []);
    RetryFirstAttempt();
    var first := TryPlay(env, run, kitchen, "http://alert", Some(50));
    var ps := [Player("10.0.0.9", DefaultPort, Some("Kitchen"))];
    assert Matches(ps[0], "Kitchen");
    assert FirstMatch("Kitchen", ps).Some?;
    assert env.search(6) == Found(ps);
    RecoverPlays(env, map[Key(kitchen) := kitchen], first.run, kitchen, "http://alert", Some(50));
  }
}

=== FILE: platform.dfy ===
/** `SonosAlertPlatform`: the start-up guard on the configuration, the
    cache of accessories restored from disk, and the reconciliation of
    that cache with the configured alerts once launching has finished. */
module Platform {
  import opened Types
  import opened Discovery

  type Uuid = string

  /** A HomeKit accessory as the platform handles it. */
  datatype Accessory = Accessory(displayName: string, uuid: Uuid)

  /** The restored accessories, keyed by UUID. */
  type Cache = map<Uuid, Accessory>

  /** The guard of the constructor: a name, at least one alert, and rooms
      in the first alert. Later alerts are not looked at, nor is the
      address. */
  predicate Configured(cfg: Config)
    ensures |cfg.alerts| == 0 ==> !Configured(cfg)
    ensures cfg.name == "" ==> !Configured(cfg)
  {
    cfg.name != "" && |cfg.alerts| > 0 && |cfg.alerts[0].rooms| > 0
  }

  /** Whether the plugin starts depends on the name and the first alert
      only: appending alerts or setting an address changes nothing. */
  lemma ConfiguredByFirstAlert(cfg: Config, later: seq<Alert>, ip: Option<string>)
    requires |cfg.alerts| > 0
    ensures Configured(cfg.(alerts := cfg.alerts + later, ipAddress := ip))
            <==> Configured(cfg.(alerts := [cfg.alerts[0]]))
  {
    assert (cfg.alerts + later)[0] == cfg.alerts[0];
  }

  /** Every accessory is stored under its own UUID. */
  ghost predicate Keyed(cache: Cache) {
    forall u :: u in cache ==> cache[u].uuid == u
  }

  /** `configureAccessory`: remember a restored accessory under its UUID,
      replacing an earlier one with the same UUID. */
  function ConfigureAccessory(cache: Cache, acc: Accessory): (r: Cache)
    ensures acc.uuid in r && r[acc.uuid] == acc
    ensures r.Keys == cache.Keys + {acc.uuid}
    ensures forall u :: u in cache && u != acc.uuid ==> r[u] == cache[u]
    ensures Keyed(cache) ==> Keyed(r)
  {
    cache[acc.uuid := acc]
  }

  /** An alert's switch handler and the accessory it is attached to. */
  datatype Switch = Switch(accessory: Accessory, alert: Alert)

  /** The accessories a pass over the alerts creates: one for every alert
      whose UUID the cache does not hold, in the order of the alerts. Two
      such alerts with one name give two accessories, as the cache is not
      updated during the pass. */
  function Fresh(cache: Cache, alerts: seq<Alert>, uuid: string -> Uuid): (created: seq<Accessory>)
    ensures |created| <= |alerts|
    ensures forall a :: a in created ==> a.uuid !in cache
    decreases |alerts|
  {
    if |alerts| == 0 then []
    else
      var last := alerts[|alerts| - 1];
      var u := uuid(last.name);
      Fresh(cache, alerts[..|alerts| - 1], uuid) + (if u in cache then [] else [Accessory(last.name, u)])
  }

  /** The switch of one alert: on the cached accessory under the alert's
      UUID, or on a new accessory named after the alert. */
  function SwitchFor(cache: Cache, alert: Alert, uuid: string -> Uuid): (s: Switch)
    ensures s.alert == alert
    ensures uuid(alert.name) in cache ==> s.accessory == cache[uuid(alert.name)]
    ensures uuid(alert.name) !in cache ==> s.accessory == Accessory(alert.name, uuid(alert.name))
  {
    var u := uuid(alert.name);
    Switch(if u in cache then cache[u] else Accessory(alert.name, u), alert)
  }

  /** The loop over the alerts: attach a switch to the cached accessory of
      each alert, or to a new one, and collect the active UUIDs. */
  method ConnectSwitches(cache: Cache, alerts: seq<Alert>, uuid: string -> Uuid)
    returns (switches: seq<Switch>, created: seq<Accessory>, active: seq<Uuid>)
    ensures |switches| == |alerts| && |active| == |alerts|
    ensures forall i :: 0 <= i < |alerts| ==> active[i] == uuid(alerts[i].name) && switches[i].alert == alerts[i]
    ensures forall i :: 0 <= i < |alerts| && active[i] in cache ==> switches[i].accessory == cache[active[i]]
    ensures forall i :: 0 <= i < |alerts| && active[i] !in cache ==>
              switches[i].accessory == Accessory(alerts[i].name, active[i]) && switches[i].accessory in created
    ensures created == Fresh(cache, alerts, uuid)
    ensures |created| > 0 <==> exists i :: 0 <= i < |alerts| && uuid(alerts[i].name) !in cache
    ensures forall u :: u in active <==> exists i :: 0 <= i < |alerts| && uuid(alerts[i].name) == u
    ensures Keyed(cache) ==> forall i :: 0 <= i < |alerts| ==> switches[i].accessory.uuid == uuid(alerts[i].name)
  {
    switches := seq(|alerts|, j requires 0 <= j < |alerts| => SwitchFor(cache, alerts[j], uuid));
    active := seq(|alerts|, j requires 0 <= j < |alerts| => uuid(alerts[j].name));
    created := Fresh(cache, alerts, uuid);
    FreshSome(cache, alerts, uuid);
    FreshContains(cache, alerts, uuid);
    SwitchesOfAlerts(cache, alerts, uuid, switches, active, created);
    ActiveNames(alerts, uuid, active);
    KeyedSwitches(cache, alerts, uuid, switches, active);
  }

  /** One more alert adds at most its own new accessory. */
  lemma FreshStep(cache: Cache, alerts: seq<Alert>, uuid: string -> Uuid, i: nat)
    requires i < |alerts|
    ensures var u := uuid(alerts[i].name);
            Fresh(cache, alerts[..i + 1], uuid)
            == Fresh(cache, alerts[..i], uuid) + (if u in cache then [] else [Accessory(alerts[i].name, u)])
  {
    assert alerts[..i + 1][..i] == alerts[..i];
  }

  /** Every alert without a cached accessory has its new one among those
      created. */
  lemma {:induction false} FreshContains(cache: Cache, alerts: seq<Alert>, uuid: string -> Uuid)
    ensures forall j :: 0 <= j < |alerts| && uuid(alerts[j].name) !in cache ==>
              Accessory(alerts[j].name, uuid(alerts[j].name)) in Fresh(cache, alerts, uuid)
    decreases |alerts|
  {
    if |alerts| > 0 {
      var n := |alerts| - 1;
      FreshContains(cache, alerts[..n], uuid);
      FreshStep(cache, alerts, uuid, n);
      assert alerts[..n + 1] == alerts;
      forall j | 0 <= j < n ensures alerts[..n][j] == alerts[j] { }
    }
  }

  lemma SwitchesOfAlerts(cache: Cache, alerts: seq<Alert>, uuid: string -> Uuid,
                         switches: seq<Switch>, active: seq<Uuid>, created: seq<Accessory>)
    requires |switches| == |alerts| && |active| == |alerts|
    requires forall j :: 0 <= j < |alerts| ==> active[j] == uuid(alerts[j].name)
    requires forall j :: 0 <= j < |alerts| ==> switches[j] == SwitchFor(cache, alerts[j], uuid)
    requires forall j :: 0 <= j < |alerts| && active[j] !in cache ==> switches[j].accessory in created
    ensures forall i :: 0 <= i < |alerts| ==> active[i] == uuid(alerts[i].name) && switches[i].alert == alerts[i]
    ensures forall i :: 0 <= i < |alerts| && active[i] in cache ==> switches[i].accessory == cache[active[i]]
    ensures forall i :: 0 <= i < |alerts| && active[i] !in cache ==>
              switches[i].accessory == Accessory(alerts[i].name, active[i]) && switches[i].accessory in created
  {
  }

  lemma ActiveNames(alerts: seq<Alert>, uuid: string -> Uuid, active: seq<Uuid>)
    requires |active| == |alerts| && forall i :: 0 <= i < |alerts| ==> active[i] == uuid(alerts[i].name)
    ensures forall u :: u in active <==> exists i :: 0 <= i < |alerts| && uuid(alerts[i].name) == u
  {
    forall u ensures u in active ==> exists i :: 0 <= i < |alerts| && uuid(alerts[i].name) == u {
      if u in active {
        var i :| 0 <= i < |active| && active[i] == u;
      }
    }
  }

  lemma KeyedSwitches(cache: Cache, alerts: seq<Alert>, uuid: string -> Uuid, switches: seq<Switch>, active: seq<Uuid>)
    requires |switches| == |alerts| && |active| == |alerts|
    requires forall i :: 0 <= i < |alerts| ==> active[i] == uuid(alerts[i].name)
    requires forall i :: 0 <= i < |alerts| && active[i] in cache ==> switches[i].accessory == cache[active[i]]
    requires forall i :: 0 <= i < |alerts| && active[i] !in cache ==>
               switches[i].accessory == Accessory(alerts[i].name, active[i])
    ensures Keyed(cache) ==> forall i :: 0 <= i < |alerts| ==> switches[i].accessory.uuid == uuid(alerts[i].name)
  {
    if Keyed(cache) {
      forall i | 0 <= i < |alerts| ensures switches[i].accessory.uuid == uuid(alerts[i].name) {
        if active[i] in cache {
          assert cache[active[i]].uuid == active[i];
        }
      }
    }
  }

  /** Some accessory is created exactly when the cache misses the UUID of
      some alert. */
  lemma {:induction false} FreshSome(cache: Cache, alerts: seq<Alert>, uuid: string -> Uuid)
    ensures |Fresh(cache, alerts, uuid)| > 0 <==> exists i :: 0 <= i < |alerts| && uuid(alerts[i].name) !in cache
    decreases |alerts|
  {
    if |alerts| > 0 {
      var n := |alerts| - 1;
      var init := alerts[..n];
      FreshSome(cache, init, uuid);
      assert forall i :: 0 <= i < |init| ==> init[i] == alerts[i];
      if exists i :: 0 <= i < |alerts| && uuid(alerts[i].name) !in cache {
        var i :| 0 <= i < |alerts| && uuid(alerts[i].name) !in cache;
        if i < n { assert init[i] == alerts[i]; }
      }
    }
  }

  /** The clean-up loop: unregister and forget every cached accessory
      whose UUID is not active. The order of the entries is not modelled. */
  method RemoveStale(cache: Cache, active: seq<Uuid>) returns (removed: seq<Accessory>, kept: Cache)
    ensures forall u :: u in kept <==> u in cache && u in active
    ensures forall u :: u in kept ==> kept[u] == cache[u]
    ensures forall u :: u in cache && u !in active ==> cache[u] in removed
    ensures forall a :: a in removed ==> exists u :: u in cache && u !in active && cache[u] == a
  {
    var live := set u | u in active;
    removed, kept := [], cache;
    var todo := cache.Keys;
    ghost var keys: seq<Uuid> := [];
    while todo != {}
      invariant todo <= cache.Keys
      invariant forall u :: u in kept <==> u in cache && (u in todo || u in live)
      invariant forall u :: u in kept ==> kept[u] == cache[u]
      invariant |keys| == |removed|
      invariant forall i :: 0 <= i < |keys| ==> keys[i] in cache && keys[i] !in live && removed[i] == cache[keys[i]]
      invariant forall u :: u in cache && u !in todo && u !in live ==> cache[u] in removed
      decreases |todo|
    {
      var u :| u in todo;
      if u !in live {
        removed := removed + [cache[u]];
        keys := keys + [u];
        kept := kept - {u};
      }
      todo := todo - {u};
    }
    forall a | a in removed ensures exists u :: u in cache && u !in active && cache[u] == a {
      var i :| 0 <= i < |removed| && removed[i] == a;
      assert keys[i] in cache && keys[i] !in live;
    }
  }

  /** The outcome of `prepAlertSwitches`. */
  datatype Sync = Sync(switches: seq<Switch>, created: seq<Accessory>, active: seq<Uuid>,
                       registered: bool, removed: seq<Accessory>, cache: Cache)

  /** `prepAlertSwitches`: connect the switches, register the new
      accessories in one call when there are any, drop the stale ones:
      afterwards the cache holds exactly the restored accessories some
      alert still uses. */
  method PrepAlertSwitches(cache: Cache, alerts: seq<Alert>, uuid: string -> Uuid) returns (s: Sync)
    ensures |s.switches| == |alerts|
    ensures forall i :: 0 <= i < |alerts| ==> s.switches[i].alert == alerts[i]
    ensures Keyed(cache) ==> forall i :: 0 <= i < |alerts| ==> s.switches[i].accessory.uuid == uuid(alerts[i].name)
    ensures s.created == Fresh(cache, alerts, uuid)
    ensures s.registered <==> exists i :: 0 <= i < |alerts| && uuid(alerts[i].name) !in cache
    ensures forall u :: u in s.cache <==> u in cache && exists i :: 0 <= i < |alerts| && uuid(alerts[i].name) == u
    ensures forall u :: u in s.cache ==> s.cache[u] == cache[u]
    ensures forall u :: u in cache && u !in s.cache ==> cache[u] in s.removed
  {
    var switches, created, active := ConnectSwitches(cache, alerts, uuid);
    var removed, kept := RemoveStale(cache, active);
    s := Sync(switches, created, active, |created| > 0, removed, kept);
  }

  /** What constructing the platform and launching leads to: no manager
      and no reconciliation for a configuration the guard rejects. */
  datatype Launched = Launched(sonos: Option<Manager>, sync: Option<Sync>)

  /** The constructor and the `didFinishLaunching` hook, with the
      discovery answers and the UUID generator as parameters. */
  method Launch(cfg: Config, cache: Cache, uuid: string -> Uuid, broadcast: Search, seed: SeedReply)
    returns (l: Launched)
    ensures l.sonos.Some? <==> cfg.name != "" && |cfg.alerts| > 0 && |cfg.alerts[0].rooms| > 0
    ensures l.sync.Some? <==> l.sonos.Some?
    ensures l.sonos.Some? ==> l.sonos.value == Init(cfg, broadcast, seed)
    ensures l.sync.Some? ==> (l.sync.value.registered <==> exists i :: 0 <= i < |cfg.alerts| && uuid(cfg.alerts[i].name) !in cache)
  {
    if !Configured(cfg) {
      return Launched(None, None);
    }
    var s := PrepAlertSwitches(cache, cfg.alerts, uuid);
    l := Launched(Some(Init(cfg, broadcast, seed)), Some(s));
  }
}

=== FILE: registry.dfy ===
/** The device registry of `SonosManager`: the last known endpoint of
    every speaker, keyed by the lower-cased room name. */
module Registry {
  import opened Text
  import opened Types

  /** A discovered speaker: its display name and where to reach it. */
  datatype Device = Device(name: string, host: string, port: int)

  /** The control port every speaker listens on. */
  const DefaultPort: int := 1400

  type Registry = map<string, Device>

  function Key(d: Device): string {
    Lower(d.name)
  }

  /** Every entry is stored under the lower case of its own name. */
  ghost predicate WellKeyed(reg: Registry) {
    forall k :: k in reg ==> k == Key(reg[k])
  }

  /** Replace (or add) the entry of one device as a whole. */
  function Put(reg: Registry, d: Device): (r: Registry)
    ensures Key(d) in r && r[Key(d)] == d
    ensures r.Keys == reg.Keys + {Key(d)}
    ensures forall k :: k in reg && k != Key(d) ==> r[k] == reg[k]
    ensures WellKeyed(reg) ==> WellKeyed(r)
  {
    reg[Key(d) := d]
  }

  /** The lower-case keys a list of devices is stored under. */
  function Keys(ds: seq<Device>): set<string> {
    set i | 0 <= i < |ds| :: Key(ds[i])
  }

  /** `ds[i]` is the last device of the list with its key. */
  ghost predicate LastWithKey(ds: seq<Device>, i: int)
    requires 0 <= i < |ds|
  {
    forall j :: i < j < |ds| ==> Key(ds[j]) != Key(ds[i])
  }

  lemma KeysCons(ds: seq<Device>)
    requires |ds| > 0
    ensures Keys(ds) == {Key(ds[0])} + Keys(ds[1..])
  {
    forall k | k in Keys(ds) ensures k in {Key(ds[0])} + Keys(ds[1..]) {
      var i :| 0 <= i < |ds| && Key(ds[i]) == k;
      if i > 0 { assert ds[1..][i - 1] == ds[i]; }
    }
    forall k | k in Keys(ds[1..]) ensures k in Keys(ds) {
      var i :| 0 <= i < |ds[1..]| && Key(ds[1..][i]) == k;
      assert ds[1..][i] == ds[i + 1];
    }
  }

  lemma LastWithKeyCons(ds: seq<Device>)
    requires |ds| > 0
    ensures forall i :: 0 < i < |ds| && LastWithKey(ds, i) ==> LastWithKey(ds[1..], i - 1)
    ensures LastWithKey(ds, 0) ==> Key(ds[0]) !in Keys(ds[1..])
  {
    forall i | 0 < i < |ds| && LastWithKey(ds, i) ensures LastWithKey(ds[1..], i - 1) {
      forall j | i - 1 < j < |ds[1..]| ensures Key(ds[1..][j]) != Key(ds[1..][i - 1]) {
        assert ds[1..][j] == ds[j + 1];
      }
    }
    if LastWithKey(ds, 0) {
      forall j | 0 <= j < |ds[1..]| ensures Key(ds[1..][j]) != Key(ds[0]) {
        assert ds[1..][j] == ds[j + 1];
      }
    }
  }

  /** Writes the devices one after the other, as the discovery loops do:
      the last device with a given key wins. */
  function PutAll(reg: Registry, ds: seq<Device>): (r: Registry)
    ensures r.Keys == reg.Keys + Keys(ds)
    ensures forall k :: k in reg && k !in Keys(ds) ==> r[k] == reg[k]
    ensures forall i :: 0 <= i < |ds| && LastWithKey(ds, i) ==> r[Key(ds[i])] == ds[i]
    ensures WellKeyed(reg) ==> WellKeyed(r)
    decreases |ds|
  {
    if |ds| == 0 then reg
    else
      KeysCons(ds);
      LastWithKeyCons(ds);
      PutAll(Put(reg, ds[0]), ds[1..])
  }

  /** Writing two lists is writing their concatenation. */
  lemma {:induction false} PutAllAppend(reg: Registry, a: seq<Device>, b: seq<Device>)
    ensures PutAll(reg, a + b) == PutAll(PutAll(reg, a), b)
    decreases |a|
  {
    if |a| == 0 {
      assert a + b == b;
    } else {
      assert (a + b)[1..] == a[1..] + b;
      PutAllAppend(Put(reg, a[0]), a[1..], b);
    }
  }

  /** The lower-case names a plain JavaScript object answers through its
      prototype although nothing was stored under them: a truthiness test
      on such a key passes. */
  predicate Inherited(k: string) {
    k == "constructor" || k == "__proto__"
  }

  /** `getDevice`: a case-insensitive lookup. */
  function Get(reg: Registry, name: string): (r: Option<Device>)
    ensures r.Some? <==> Lower(name) in reg
    ensures r.Some? ==> r.value == reg[Lower(name)]
    ensures r.Some? && WellKeyed(reg) ==> Key(r.value) == Lower(name)
  {
    if Lower(name) in reg then Some(reg[Lower(name)]) else None
  }

  /** A lookup finds the device just written whatever the case of the
      query, and a write leaves every other name's lookup alone. */
  lemma GetAfterPut(reg: Registry, d: Device, q: string)
    ensures Lower(q) == Key(d) ==> Get(Put(reg, d), q) == Some(d)
    ensures Lower(q) != Key(d) ==> Get(Put(reg, d), q) == Get(reg, q)
  {
  }

  /** `ds` is an enumeration of the registry: as many entries as keys,
      every registered device among them, nothing else. */
  predicate Lists(reg: Registry, ds: seq<Device>) {
    |ds| == |reg|
    && (forall k :: k in reg ==> reg[k] in ds)
    && (forall i :: 0 <= i < |ds| ==> ds[i] in reg.Values)
  }

  /** `getAllDevices`: every registered device once. The order of
      `Object.values` is not modelled, so any enumeration is allowed. */
  method AllDevices(reg: Registry) returns (ds: seq<Device>)
    ensures |ds| == |reg|
    ensures forall k :: k in reg ==> reg[k] in ds
    ensures forall i :: 0 <= i < |ds| ==> ds[i] in reg.Values
    ensures Lists(reg, ds)
  {
    ds := [];
    var todo := reg.Keys;
    while todo != {}
      invariant todo <= reg.Keys
      invariant |ds| + |todo| == |reg|
      invariant forall k :: k in reg && k !in todo ==> reg[k] in ds
      invariant forall i :: 0 <= i < |ds| ==> ds[i] in reg.Values
      decreases |todo|
    {
      var k :| k in todo;
      ds := ds + [reg[k]];
      todo := todo - {k};
    }
  }
}

=== FILE: switch.dfy ===
/** `AlertSwitch.setOn`: an activated switch expands the "All" rooms of
    its alert over the registered speakers and asks the manager to play
    the alert once. */
module AlertSwitch {
  import opened Types
  import opened Text
  import opened Registry
  import opened Discovery
  import opened Orchestrator

  /** One room of the alert as it is played: an "All" room stands for
      every registered speaker, at the volume of that room. */
  function ExpandRoom(room: Room, devices: seq<Device>): (rs: seq<Room>)
    ensures IsAll(room.name) ==>
              |rs| == |devices| && forall i :: 0 <= i < |devices| ==> rs[i] == Room(devices[i].name, room.volume)
    ensures !IsAll(room.name) ==> rs == [room]
  {
    if IsAll(room.name) then seq(|devices|, i requires 0 <= i < |devices| => Room(devices[i].name, room.volume))
    else [room]
  }

  /** The `flatMap` of `ExpandRoom` over the rooms. */
  function Expand(rooms: seq<Room>, devices: seq<Device>): (rs: seq<Room>)
    ensures forall r :: r in rs ==>
              (r in rooms && !IsAll(r.name))
              || (exists i, j :: 0 <= i < |rooms| && 0 <= j < |devices|
                                 && IsAll(rooms[i].name) && r == Room(devices[j].name, rooms[i].volume))
    decreases |rooms|
  {
    if |rooms| == 0 then []
    else
      var rest := Expand(rooms[1..], devices);
      assert forall i :: 0 <= i < |rooms[1..]| ==> rooms[1..][i] == rooms[i + 1];
      ExpandRoom(rooms[0], devices) + rest
  }

  /** The number of "All" rooms. */
  function AllRooms(rooms: seq<Room>): nat
    decreases |rooms|
  {
    if |rooms| == 0 then 0 else (if IsAll(rooms[0].name) then 1 else 0) + AllRooms(rooms[1..])
  }

  /** Expansion keeps the order of the rooms: expanding a concatenation
      is concatenating the expansions. */
  lemma {:induction false} ExpandAppend(a: seq<Room>, b: seq<Room>, devices: seq<Device>)
    ensures Expand(a + b, devices) == Expand(a, devices) + Expand(b, devices)
    decreases |a|
  {
    if |a| == 0 {
      assert a + b == b;
    } else {
      assert (a + b)[1..] == a[1..] + b;
      ExpandAppend(a[1..], b, devices);
    }
  }

  /** Every "All" room contributes one entry per speaker, every other room
      itself. */
  lemma {:induction false} ExpandLength(rooms: seq<Room>, devices: seq<Device>)
    ensures |Expand(rooms, devices)| == AllRooms(rooms) * |devices| + (|rooms| - AllRooms(rooms))
    ensures AllRooms(rooms) <= |rooms|
    decreases |rooms|
  {
    if |rooms| > 0 {
      ExpandLength(rooms[1..], devices);
      var n, d := AllRooms(rooms[1..]), |devices|;
      var here := ExpandRoom(rooms[0], devices);
      assert |Expand(rooms, devices)| == |here| + |Expand(rooms[1..], devices)|;
      if IsAll(rooms[0].name) {
        assert AllRooms(rooms) == n + 1 && |here| == d;
        MulSucc(AllRooms(rooms), n, d);
      } else {
        assert AllRooms(rooms) == n && |here| == 1;
      }
    }
  }

  lemma MulSucc(a: nat, n: nat, d: nat)
    requires a == n + 1
    ensures a * d == n * d + d
  {
  }

  /** Without an "All" room the rooms pass through unchanged. */
  lemma {:induction false} ExpandWithoutAll(rooms: seq<Room>, devices: seq<Device>)
    ensures AllRooms(rooms) == 0 ==> Expand(rooms, devices) == rooms
    decreases |rooms|
  {
    if |rooms| > 0 && AllRooms(rooms) == 0 {
      ExpandWithoutAll(rooms[1..], devices);
      assert rooms == [rooms[0]] + rooms[1..];
    }
  }

  /** The request an activation makes of the manager. */
  datatype Activation = Activation(rooms: seq<Room>, soundUrl: string)

  /** `setOn`: a falsy value does nothing; otherwise exactly one request to
      play the alert's sound in the expanded rooms. `devices` is what the
      manager lists as registered at that moment. */
  function SetOn(value: CharValue, alert: Alert, devices: seq<Device>): (r: Option<Activation>)
    ensures r.None? <==> !Truthy(value)
    ensures r.Some? ==> r.value.soundUrl == alert.soundUrl
    ensures r.Some? ==> |r.value.rooms| == AllRooms(alert.rooms) * |devices| + (|alert.rooms| - AllRooms(alert.rooms))
    ensures r.Some? && AllRooms(alert.rooms) == 0 ==> r.value.rooms == alert.rooms
    ensures r.Some? ==> r.value.rooms == Expand(alert.rooms, devices)
  {
    if !Truthy(value) then None
    else
      ExpandLength(alert.rooms, devices);
      ExpandWithoutAll(alert.rooms, devices);
      Some(Activation(Expand(alert.rooms, devices), alert.soundUrl))
  }

  /** An "All" room played through an initialized manager reaches every
      registered speaker once, in the order the registry listed them, at
      the room's volume. `devices` is what `AllDevices` returned. */
  lemma AllRoomReachesEveryDevice(m: Manager, devices: seq<Device>, room: Room)
    requires m.initialized && WellKeyed(m.reg) && IsAll(room.name)
    requires Lists(m.reg, devices)
    ensures var tasks := PlayAlert(m, Expand([room], devices));
            |tasks| == |devices| && forall i :: 0 <= i < |devices| ==> tasks[i] == Task(devices[i], room.volume)
  {
    var rooms := Expand([room], devices);
    assert [room][1..] == [];
    assert rooms == ExpandRoom(room, devices) + Expand([], devices);
    forall i | 0 <= i < |rooms| ensures Lower(rooms[i].name) in m.reg && m.reg[Lower(rooms[i].name)] == devices[i] {
      var k :| k in m.reg && m.reg[k] == devices[i];
    }
    ResolveAll(m.reg, rooms);
  }
}

=== FILE: text.dfy ===
/** Case folding of room names. Room names are compared and stored in
    lower case throughout the plugin (the registry keys, the "All"
    sentinel, rediscovery matching). */
module Text {

  predicate IsUpper(c: char) {
    'A' <= c <= 'Z'
  }

  /** Lower-cases one character (ASCII letters only). */
  function LowerChar(c: char): (r: char)
    ensures !IsUpper(r)
    ensures !IsUpper(c) ==> r == c
    ensures IsUpper(c) ==> r as int == c as int + 32
  {
    if IsUpper(c) then (c as int + 32) as char else c
  }

  /** `s.toLowerCase()` restricted to ASCII letters. */
  function Lower(s: string): (r: string)
    ensures |r| == |s|
    ensures forall i :: 0 <= i < |r| ==> !IsUpper(r[i])
    ensures forall i :: 0 <= i < |s| && !IsUpper(s[i]) ==> r[i] == s[i]
    ensures forall i :: 0 <= i < |s| && IsUpper(s[i]) ==> r[i] as int == s[i] as int + 32
  {
    seq(|s|, i requires 0 <= i < |s| => LowerChar(s[i]))
  }

  /** Lower-casing is idempotent: a key that is already lower case is
      its own key. */
  lemma LowerIdempotent(s: string)
    ensures Lower(Lower(s)) == Lower(s)
  {
  }

  /** The "All" sentinel of a room list, in any letter case: three
      letters, each `a`/`l` in either case. */
  predicate IsAll(name: string)
    ensures IsAll(name) <==>
              |name| == 3 && (name[0] == 'a' || name[0] == 'A')
              && (name[1] == 'l' || name[1] == 'L') && (name[2] == 'l' || name[2] == 'L')
  {
    Lower(name) == "all"
  }

  lemma AllSentinelSpellings()
    ensures IsAll("All") && IsAll("ALL") && IsAll("all") && !IsAll("Hall")
  {
    assert Lower("All") == "all";
    assert Lower("ALL") == "all";
    assert Lower("all") == "all";
    assert |Lower("Hall")| == 4;
  }
}

=== FILE: types.dfy ===
/** The configuration shapes the plugin reads (src/types.ts). */
module Types {

  datatype Option<+T> = None | Some(value: T) {
    function GetOr(default: T): T {
      match this
      case Some(v) => v
      case None => default
    }
  }

  /** One target of an alert: a room name and an optional volume. */
  datatype Room = Room(name: string, volume: Option<int>)

  /** One configured alert, exposed as one switch. */
  datatype Alert = Alert(name: string, soundUrl: string, rooms: seq<Room>)

  /** The platform configuration. A missing `alerts` list is the empty
      list; `ipAddress` is `advanced.ip_address`. */
  datatype Config = Config(name: string, alerts: seq<Alert>, ipAddress: Option<string>)

  /** A characteristic value as a switch handler receives it. */
  datatype CharValue = BoolValue(b: bool) | NumberValue(n: int) | StringValue(s: string)

  /** JavaScript truthiness of such a value: `false`, `0` and the empty
      string are the only falsy ones. */
  predicate Truthy(v: CharValue)
    ensures Truthy(v) <==> v != BoolValue(false) && v != NumberValue(0) && v != StringValue("")
  {
    match v
    case BoolValue(b) => b
    case NumberValue(n) => n != 0
    case StringValue(s) => s != ""
  }
}
